=== FILE: README.md ===
# Jersey release-notes Maven plugin: a Dafny model

The plugin builds the HTML release notes of a Jersey release. Its source holds two variants of the same work: the `release-notes` Maven goal and an older class that carries no Maven annotations.

- `ReleaseNotesMojo` is the `release-notes` goal. It validates its parameters and connects to the GitHub repository. For every milestone whose title is the release version, ignoring case, it builds the notes: one `<li>` entry per closed issue or pull request, sorted and appended. Unless dry-run is off, it does nothing else. With dry-run off, it may publish the notes as a GitHub release and, when the template file exists, merges the notes into it and writes the page to `dir/version.html`.
- `GenerateReleaseNotesMojo` is the older variant, a class with no `@Mojo` or `@Parameter` annotations. It does the same work without a dry-run mode, and its validation differs.

The model consists of pure functions. GitHub and the file system are not called. Milestones and their issues are input data. The template is given by content: `None` means the file does not exist. A run returns its effects as a list of actions (create a release, create the directory, write a file), in the order the source performs them.

Modules:

- `Wrappers`: the `Option`, `Result` and `Outcome` types.
- `Strings`: the `java.lang.String` operations the plugin uses.
  - `contains` and `replace`.
  - `compareTo` order, as the predicate `LessEq` and the method `CompareTo`.
  - `equalsIgnoreCase`.
  - Appending.
- `Seqs`: generic maps over sequences.
- `Sorting`: an insertion sort, standing for `Stream.sorted()`, and a merge sort, standing for `Collections.sort`. Both give sorted permutations, and sorted permutations are unique.
- `JavaFormat`: a subset of `String.format`: the plugin uses `%s` and `%d`; the escape `%%` is modelled as well. It includes decimal rendering and a proof that the rendering parses back.
- `Notes`: issues and their list entries.
- `Template`: the template loop.
  - A rule table gives first-match classification.
  - The source's `if` chain is `RewriteLine`.
  - The whole loop is `Merge`, and also `MergeLines`, an imperative form of the same loop.
- `Plugin`: milestones, credentials, actions, and matching milestones to the version.
- `ReleaseNotesMojo` and `GenerateReleaseNotesMojo`: the two variants.
- `CrossCheck`: the two variants compared.
  - The builders and the page writers agree.
  - The runs agree when dry-run is off.
  - The validation and dry-run differences are stated exactly.

## Model

| member | source | states |
|---|---|---|
| ReleaseNotesMojo.ValidateParameters | src/main/java/org/glassfish/jersey/tools/plugins/releasenotes/ReleaseNotesMojo.java:151-162 | validation passes iff version, login, and password or token are all non-null; otherwise the first failing check's message is raised, in the order version, login, credential |
| Plugin.ChooseCredential | src/main/java/org/glassfish/jersey/tools/plugins/releasenotes/ReleaseNotesMojo.java:70-71 | password authentication iff a password is present, with that password; otherwise token authentication with the token; the login is always the given login |
| Plugin.MilestoneMatchesIgnoringCase | src/main/java/org/glassfish/jersey/tools/plugins/releasenotes/ReleaseNotesMojo.java:75 | a milestone is processed iff its upper-cased title equals the upper-cased version; an identical title matches; matching is transitive through titles equal ignoring case |
| Notes.FormatLine | src/main/java/org/glassfish/jersey/tools/plugins/releasenotes/ReleaseNotesMojo.java:101-106 | the entry is exactly `<li>[<a href='U'>Pull N</a>] - T</li>` plus a newline for a pull request, and the same with `Issue` for an issue, N in decimal |
| Notes.FormatAll | src/main/java/org/glassfish/jersey/tools/plugins/releasenotes/ReleaseNotesMojo.java:105-106 | one entry per issue, in the tracker's order, the i-th being the i-th issue's entry |
| Notes.FormatAllPermutes | src/main/java/org/glassfish/jersey/tools/plugins/releasenotes/ReleaseNotesMojo.java:105-106 | rearranging the issues rearranges the entries: equal issue multisets give equal entry multisets |
| JavaFormat.DecimalRoundTrip | src/main/java/org/glassfish/jersey/tools/plugins/releasenotes/ReleaseNotesMojo.java:105-106 | the `%d` rendering of the issue number loses nothing: parsing it back gives the number, negative numbers included |
| JavaFormat.FormatThree | src/main/java/org/glassfish/jersey/tools/plugins/releasenotes/ReleaseNotesMojo.java:105-106 | a format of literal, conversion, literal, conversion, literal, conversion, literal renders the literals verbatim with the three arguments converted in order |
| JavaFormat.FormatPlain | src/main/java/org/glassfish/jersey/tools/plugins/releasenotes/ReleaseNotesMojo.java:101-102 | a format without `%` is well formed and renders to itself whatever the arguments |
| Strings.CompareTo | src/main/java/org/glassfish/jersey/tools/plugins/releasenotes/ReleaseNotesMojo.java:107 | the natural order `sorted()` uses: the result is 0 iff the strings are equal, and at most 0 iff the first is lexicographically at most the second (a proper prefix is smaller) |
| Strings.LessEqTotal | src/main/java/org/glassfish/jersey/tools/plugins/releasenotes/ReleaseNotesMojo.java:107 | any two strings are comparable in that order |
| Strings.LessEqAntisymmetric | src/main/java/org/glassfish/jersey/tools/plugins/releasenotes/ReleaseNotesMojo.java:107 | strings each at most the other are equal |
| Strings.LessEqTransitive | src/main/java/org/glassfish/jersey/tools/plugins/releasenotes/ReleaseNotesMojo.java:107 | the order is transitive |
| Sorting.InsertionSort | src/main/java/org/glassfish/jersey/tools/plugins/releasenotes/ReleaseNotesMojo.java:107 | `Stream.sorted()`: the result is sorted and a permutation of the input |
| Sorting.SortedUnique | src/main/java/org/glassfish/jersey/tools/plugins/releasenotes/ReleaseNotesMojo.java:107 | two sorted sequences with the same multiset of elements are equal, so the sorted order of the entries is determined by the entries alone |
| ReleaseNotesMojo.PrepareReleaseNotes | src/main/java/org/glassfish/jersey/tools/plugins/releasenotes/ReleaseNotesMojo.java:99-109 | an empty issue list gives the empty string |
| ReleaseNotesMojo.PrepareReleaseNotesSingle | src/main/java/org/glassfish/jersey/tools/plugins/releasenotes/ReleaseNotesMojo.java:99-109 | a single issue's notes are its entry alone |
| ReleaseNotesMojo.PrepareReleaseNotesSorted | src/main/java/org/glassfish/jersey/tools/plugins/releasenotes/ReleaseNotesMojo.java:105-107 | the notes are the concatenation of every sorted rearrangement of the entries, that is, of the entries in ascending order |
| ReleaseNotesMojo.PrepareReleaseNotesOrderIndependent | src/main/java/org/glassfish/jersey/tools/plugins/releasenotes/ReleaseNotesMojo.java:104-107 | the notes do not depend on the order in which the tracker lists the issues |
| Strings.Contains | src/main/java/org/glassfish/jersey/tools/plugins/releasenotes/ReleaseNotesMojo.java:125 | `String.contains`: true iff the target occurs at some position |
| Strings.ReplaceAllAbsent | src/main/java/org/glassfish/jersey/tools/plugins/releasenotes/ReleaseNotesMojo.java:126 | `String.replace` leaves a string without the target unchanged |
| Strings.ReplaceAllSingle | src/main/java/org/glassfish/jersey/tools/plugins/releasenotes/ReleaseNotesMojo.java:126 | `String.replace` on `p + target + q`, with no other occurrence, gives `p + replacement + q` |
| Template.ClassifyFirstMatch | src/main/java/org/glassfish/jersey/tools/plugins/releasenotes/ReleaseNotesMojo.java:124-139 | the rule table picks a line's branch by first match: date marker, then version marker without date marker, then heading, then `<ul>`, else passthrough, each as an iff over `contains` |
| Template.RewriteLineByClass | src/main/java/org/glassfish/jersey/tools/plugins/releasenotes/ReleaseNotesMojo.java:124-139 | the source's `if` chain emits 1, 1, 4, 2 or 1 lines by class: the date substituted, the version substituted, the notes block (heading, notes, `</ul>`, original line), the line and its release link, or the line |
| Template.DateWinsOverVersion | src/main/java/org/glassfish/jersey/tools/plugins/releasenotes/ReleaseNotesMojo.java:125-128 | a line holding both markers gets only the date substituted |
| Template.DateSubstitution | src/main/java/org/glassfish/jersey/tools/plugins/releasenotes/ReleaseNotesMojo.java:125-126 | `p + "@RELEASE_DATE@" + s`, with no other date marker, becomes `p + date + s` |
| Template.VersionSubstitution | src/main/java/org/glassfish/jersey/tools/plugins/releasenotes/ReleaseNotesMojo.java:127-128 | `p + "@LATEST_VERSION@" + s`, without a date marker or another version marker, becomes `p + version + s` |
| Template.ReleaseLink | src/main/java/org/glassfish/jersey/tools/plugins/releasenotes/ReleaseNotesMojo.java:136 | the link line is exactly `    <li><a href="V.html">Jersey V Release Notes</a></li>` |
| Template.MergeAppend | src/main/java/org/glassfish/jersey/tools/plugins/releasenotes/ReleaseNotesMojo.java:122-140 | merging distributes over concatenation of templates |
| Template.MergeLength | src/main/java/org/glassfish/jersey/tools/plugins/releasenotes/ReleaseNotesMojo.java:122-140 | output length is input length plus three per heading line plus one per `<ul>` line |
| Template.MergeWithoutInsertions | src/main/java/org/glassfish/jersey/tools/plugins/releasenotes/ReleaseNotesMojo.java:124-139 | a template without heading or `<ul>` lines keeps its lines one for one, with only markers substituted |
| Template.MergeIdentity | src/main/java/org/glassfish/jersey/tools/plugins/releasenotes/ReleaseNotesMojo.java:124-139 | a template with none of the four triggers is returned unchanged |
| Template.MergeLines | src/main/java/org/glassfish/jersey/tools/plugins/releasenotes/ReleaseNotesMojo.java:122-140 | the loop that appends to the output list builds exactly the line-by-line rewrite `Merge`; the older variant's loop, GenerateReleaseNotesMojo.java lines 123-141, is the same text |
| Template.OutputPath | src/main/java/org/glassfish/jersey/tools/plugins/releasenotes/ReleaseNotesMojo.java:144 | the page is written to `dir + "/" + version + ".html"` |
| ReleaseNotesMojo.StoreReleaseNotes | src/main/java/org/glassfish/jersey/tools/plugins/releasenotes/ReleaseNotesMojo.java:115-149 | a missing template or `dryRun` other than FALSE gives no action and no error; otherwise the directory is created, then the merged template is written to `dir/version.html` |
| ReleaseNotesMojo.Execute | src/main/java/org/glassfish/jersey/tools/plugins/releasenotes/ReleaseNotesMojo.java:67-97 | the run fails iff validation fails, with its message and before any connection; otherwise it connects with the login, using the password iff one is present, to the configured repository |
| ReleaseNotesMojo.ProcessMilestonesCounts | src/main/java/org/glassfish/jersey/tools/plugins/releasenotes/ReleaseNotesMojo.java:74-93 | one release per processed milestone iff `publishToGithub` is TRUE and `dryRun` is FALSE, none otherwise; one file per processed milestone iff the template exists and `dryRun` is FALSE |
| ReleaseNotesMojo.ProcessMilestoneExplained | src/main/java/org/glassfish/jersey/tools/plugins/releasenotes/ReleaseNotesMojo.java:75-88 | every action taken for one milestone belongs to a processed milestone: a release tagged and named with the version, with that milestone's notes as body, only when publishing is on; or, only with the template present and `dryRun` FALSE, the directory, or the template merged with those notes written to `dir/version.html` |
| ReleaseNotesMojo.ProcessMilestonesActions | src/main/java/org/glassfish/jersey/tools/plugins/releasenotes/ReleaseNotesMojo.java:74-93 | every action of the whole loop is accounted for in that way by some processed milestone of the list |
| ReleaseNotesMojo.DryRunHasNoEffect | src/main/java/org/glassfish/jersey/tools/plugins/releasenotes/ReleaseNotesMojo.java:81-144 | with `dryRun` TRUE or null, a validated run takes no action at all |
| ReleaseNotesMojo.ProcessMilestonesDryRun | src/main/java/org/glassfish/jersey/tools/plugins/releasenotes/ReleaseNotesMojo.java:81-144 | with `dryRun` not FALSE the milestone loop takes no action |
| GenerateReleaseNotesMojo.ValidateParameters | src/main/java/org/glassfish/jersey/tools/plugins/releasenotes/GenerateReleaseNotesMojo.java:146-157 | as written: passes iff the version is non-null and non-empty, the login non-null, and a password or token is present; messages in that order |
| GenerateReleaseNotesMojo.EmptyLoginAccepted | src/main/java/org/glassfish/jersey/tools/plugins/releasenotes/GenerateReleaseNotesMojo.java:150 | as written, an empty login with a non-empty version and a password passes validation |
| GenerateReleaseNotesMojo.ValidateParametersCorrected | src/main/java/org/glassfish/jersey/tools/plugins/releasenotes/GenerateReleaseNotesMojo.java:146-157 | corrected: passes iff version and login are non-null and non-empty and a password or token is present; an empty login gets the login message |
| GenerateReleaseNotesMojo.CorrectionOnlyRejectsEmptyLogin | src/main/java/org/glassfish/jersey/tools/plugins/releasenotes/GenerateReleaseNotesMojo.java:150 | the corrected check differs from the written one exactly on a non-empty version with an empty login, and never accepts more |
| GenerateReleaseNotesMojo.PrepareReleaseNotes | src/main/java/org/glassfish/jersey/tools/plugins/releasenotes/GenerateReleaseNotesMojo.java:98-111 | an empty issue list gives the empty string |
| Sorting.MergeSort | src/main/java/org/glassfish/jersey/tools/plugins/releasenotes/GenerateReleaseNotesMojo.java:108 | `Collections.sort`: the result is sorted and a permutation of the input |
| GenerateReleaseNotesMojo.PrepareReleaseNotesSorted | src/main/java/org/glassfish/jersey/tools/plugins/releasenotes/GenerateReleaseNotesMojo.java:104-110 | the notes are the concatenation of the entries in ascending order |
| GenerateReleaseNotesMojo.StoreReleaseNotes | src/main/java/org/glassfish/jersey/tools/plugins/releasenotes/GenerateReleaseNotesMojo.java:117-144 | a missing template gives no action; otherwise the directory is created and the merged template written to `dir/version.html`, always |
| GenerateReleaseNotesMojo.Execute | src/main/java/org/glassfish/jersey/tools/plugins/releasenotes/GenerateReleaseNotesMojo.java:68-96 | with the corrected validation: the run fails iff validation fails, with its message; otherwise it connects with the non-empty login, by password iff one is present, to the configured repository |
| GenerateReleaseNotesMojo.ExecuteAsWritten | src/main/java/org/glassfish/jersey/tools/plugins/releasenotes/GenerateReleaseNotesMojo.java:68-96 | with the validation as written: the run fails iff that check fails, with its message; otherwise it connects with the given login, possibly empty, by password iff one is present, to the configured repository |
| GenerateReleaseNotesMojo.ExecuteCorrectionOnlyEmptyLogin | src/main/java/org/glassfish/jersey/tools/plugins/releasenotes/GenerateReleaseNotesMojo.java:146-157 | the run with the corrected check differs from the run as written only on a non-empty version with an empty login, where the corrected run fails with the login message |
| GenerateReleaseNotesMojo.ProcessMilestonesCounts | src/main/java/org/glassfish/jersey/tools/plugins/releasenotes/GenerateReleaseNotesMojo.java:75-92 | one release per processed milestone iff `publishToGithub` is TRUE; one file per processed milestone iff the template exists |
| Sorting.SortsAgree | src/main/java/org/glassfish/jersey/tools/plugins/releasenotes/GenerateReleaseNotesMojo.java:108 | insertion sort and merge sort give the same sequence for every input |
| CrossCheck.BuildersAgree | src/main/java/org/glassfish/jersey/tools/plugins/releasenotes/GenerateReleaseNotesMojo.java:98-111 | the two variants build the same notes from every issue list |
| CrossCheck.StoresAgree | src/main/java/org/glassfish/jersey/tools/plugins/releasenotes/GenerateReleaseNotesMojo.java:117-144 | the older page writer is the newer one with `dryRun` FALSE |
| CrossCheck.MilestonesAgree | src/main/java/org/glassfish/jersey/tools/plugins/releasenotes/GenerateReleaseNotesMojo.java:75-92 | with `dryRun` FALSE the two milestone loops take the same actions |
| CrossCheck.ExecutesAgreeWithoutDryRun | src/main/java/org/glassfish/jersey/tools/plugins/releasenotes/GenerateReleaseNotesMojo.java:68-96 | with `dryRun` FALSE, a non-empty version and a non-empty login, the two variants give the same run |
| CrossCheck.ExecutesAgreeAsWritten | src/main/java/org/glassfish/jersey/tools/plugins/releasenotes/GenerateReleaseNotesMojo.java:68-96 | with `dryRun` FALSE and a non-empty version, the older variant as written and the `release-notes` goal give the same run, an empty login included |
| CrossCheck.ValidationDiffers | src/main/java/org/glassfish/jersey/tools/plugins/releasenotes/GenerateReleaseNotesMojo.java:146-157 | as written, the older check passes exactly when the newer one passes on a non-empty version, and gives the same outcome whenever the version is non-empty; an empty version fails the older check (written or corrected) with the version message while the newer accepts it; the corrected older check accepts nothing the newer rejects and agrees with it on a non-empty version and login |
| CrossCheck.DryRunGateDiffers | src/main/java/org/glassfish/jersey/tools/plugins/releasenotes/GenerateReleaseNotesMojo.java:82-85 | with `publishToGithub` and `dryRun` both TRUE and a non-empty version the `release-notes` goal takes no action, while the older variant as written runs and publishes once per processed milestone |

## Left out

- GitHub calls are not modelled: `connect`, `connectUsingPassword`, `getRepository`, `listMilestones`, `getIssues` and `createRelease`. Their inputs are data: the milestones and their closed issues. Their effects are returned actions. Both variants list milestones of every state and only closed issues; the model receives exactly those lists.
- File-system calls are not modelled: `Files.notExists`, `readAllLines`, `createDirectories`, `write` and `Charset.defaultCharset`. The template is passed by content, and the writes are returned actions.
- The `IOException` catch-and-continue flow is not modelled. The source prints the stack trace and carries on with the next milestone, or abandons the run. The model assumes every tracker and file call succeeds.
- Logging (`getLog().info`) and `printStackTrace` are not modelled; they have no stated result.
- ReleaseNotesMojo.PrepareReleaseNotes: the model appends the sorted entries in sorted order. The source appends them with `forEach` on the sorted stream (ReleaseNotesMojo.java line 107), which promises no order; the model takes it to follow encounter order, as a sequential stream does. `ReleaseNotesMojo.PrepareReleaseNotesSorted` and `CrossCheck.BuildersAgree` rest on this. The older variant's `List.forEach` is ordered by its contract.
- Strings.EqualsIgnoreCase: only ASCII letters are case-folded. `String.equalsIgnoreCase` also folds non-ASCII letters, following Unicode.
- Strings.LessEq: compares characters as code points. `String.compareTo` compares UTF-16 code units, so the two orders can differ for characters beyond the Basic Multilingual Plane.
- JavaFormat.Format: only `%s`, `%d` and `%%` are modelled, with no flags, width, precision, argument index or `%n`. `%d` uses ASCII digits, with no locale-specific digits. Other conversions are reported as unknown.
- Notes.Issue: the issue number is an unbounded integer. In the source it is a 32-bit `int`; the model does not need wrap-around, because the number is only rendered.
- Java `null` inside `String.format` and `String.replace` is not modelled. All strings are non-null except the validated parameters, which are `Option`s, and the two `Boolean` flags, which are `Option<bool>`.
- Maven annotations and parameter defaults are not modelled; for example, `releaseNotesFilePath` defaults to `target/release-notes`. The model takes every parameter as given.
- The log-only branches of the `release-notes` goal are not modelled: "publishing is disabled" and "not stored due to dryRun mode". They have no effect besides logging.

## Findings

| source | as written | input that shows it | evidently intended | confidence | as-written member | corrected member |
|---|---|---|---|---|---|---|
| src/main/java/org/glassfish/jersey/tools/plugins/releasenotes/GenerateReleaseNotesMojo.java:150 | the login check tests `releaseVersion.length() == 0`. The previous check has already made that false, so an empty login is accepted | version `"2.30"`, login `""`, password `"secret"` | reject an empty login, testing `githubLogin.length() == 0` | medium, not executed | GenerateReleaseNotesMojo.EmptyLoginAccepted | GenerateReleaseNotesMojo.ValidateParametersCorrected |

`GenerateReleaseNotesMojo.Execute` uses the corrected check. `GenerateReleaseNotesMojo.ValidateParameters` and `GenerateReleaseNotesMojo.ExecuteAsWritten` keep the check and the run as written. `GenerateReleaseNotesMojo.CorrectionOnlyRejectsEmptyLogin` and `GenerateReleaseNotesMojo.ExecuteCorrectionOnlyEmptyLogin` prove that the two differ only on an empty login.

=== FILE: cross_check.dfy ===
/**
  The two variants side by side: their note builders and page writers agree,
  and a run of the older variant is a run of the newer one with dry-run off.
  Where they differ, in validation and in the dry-run gate, the lemmas
  below pin the difference down.
 */
module CrossCheck {
  import opened Wrappers
  import opened Sorting
  import opened Notes
  import opened Plugin
  import R = ReleaseNotesMojo
  import G = GenerateReleaseNotesMojo

  /** The older variant's parameters for a configuration of the newer one: `dryRun` is dropped. */
  function Older(c: R.Config): G.Config {
    G.Config(c.releaseVersion, c.githubApiUrl, c.githubLogin, c.githubToken, c.githubPassword,
             c.publishToGithub, c.releaseDate, c.releaseNotesFilePath)
  }

  /** `Collections.sort` and `Stream.sorted()` build the same notes from every issue list. */
  lemma BuildersAgree(issues: seq<Issue>)
    ensures G.PrepareReleaseNotes(issues) == R.PrepareReleaseNotes(issues)
  {
    SortsAgree(FormatAll(issues));
  }

  /** The older page writer is the newer one with `dryRun` FALSE. */
  lemma StoresAgree(notes: string, template: Option<seq<string>>, version: string, date: string, dir: string)
    ensures G.StoreReleaseNotes(notes, template, version, date, dir)
         == R.StoreReleaseNotes(notes, template, version, date, dir, Some(false))
  {
  }

  lemma MilestoneAgrees(c: R.Config, version: string, m: Milestone, template: Option<seq<string>>)
    requires c.dryRun == Some(false)
    ensures G.ProcessMilestone(Older(c), version, m, template) == R.ProcessMilestone(c, version, m, template)
  {
    if MilestoneMatches(version, m) {
      BuildersAgree(m.closedIssues);
      StoresAgree(R.PrepareReleaseNotes(m.closedIssues), template, version, c.releaseDate, c.releaseNotesFilePath);
    }
  }

  /** With `dryRun` FALSE both loops take the same actions. */
  lemma {:induction false} MilestonesAgree(c: R.Config, version: string, milestones: seq<Milestone>,
                                           template: Option<seq<string>>)
    requires c.dryRun == Some(false)
    ensures G.ProcessMilestones(Older(c), version, milestones, template)
         == R.ProcessMilestones(c, version, milestones, template)
    decreases |milestones|
  {
    if |milestones| > 0 {
      MilestoneAgrees(c, version, milestones[0], template);
      MilestonesAgree(c, version, milestones[1..], template);
    }
  }

  /**
    With `dryRun` FALSE, a non-empty version and a non-empty login, the two
    variants are the same run.
   */
  lemma ExecutesAgreeWithoutDryRun(c: R.Config, milestones: seq<Milestone>, template: Option<seq<string>>)
    requires c.dryRun == Some(false)
    requires c.releaseVersion.Some? && |c.releaseVersion.value| > 0
    requires c.githubLogin.Some? && |c.githubLogin.value| > 0
    ensures G.Execute(Older(c), milestones, template) == R.Execute(c, milestones, template)
  {
    if R.ValidateParameters(c).Pass? {
      MilestonesAgree(c, c.releaseVersion.value, milestones, template);
    }
  }

  /**
    With `dryRun` FALSE and a non-empty version, the older variant as written
    and the `release-notes` goal give the same run, an empty login included.
   */
  lemma ExecutesAgreeAsWritten(c: R.Config, milestones: seq<Milestone>, template: Option<seq<string>>)
    requires c.dryRun == Some(false)
    requires c.releaseVersion.Some? && |c.releaseVersion.value| > 0
    ensures G.ExecuteAsWritten(Older(c), milestones, template) == R.Execute(c, milestones, template)
  {
    if R.ValidateParameters(c).Pass? {
      MilestonesAgree(c, c.releaseVersion.value, milestones, template);
    }
  }

  /**
    Validation: as written, the older check differs from the newer one
    exactly on an empty version, which only the older rejects; the
    corrected older check also rejects an empty login, and accepts nothing
    the newer one rejects.
   */
  lemma ValidationDiffers(c: R.Config)
    ensures G.ValidateParameters(Older(c)).Pass?
            <==> R.ValidateParameters(c).Pass? && |c.releaseVersion.value| > 0
    ensures c.releaseVersion.Some? && |c.releaseVersion.value| > 0
            ==> G.ValidateParameters(Older(c)) == R.ValidateParameters(c)
    ensures c.releaseVersion == Some("") ==> G.ValidateParameters(Older(c)) == Fail(VersionMissing)
    ensures c.releaseVersion == Some("") && c.githubLogin.Some? && (c.githubPassword.Some? || c.githubToken.Some?)
            ==> R.ValidateParameters(c).Pass?
    ensures G.ValidateParametersCorrected(Older(c)).Pass? ==> R.ValidateParameters(c).Pass?
    ensures c.releaseVersion == Some("") ==> G.ValidateParametersCorrected(Older(c)) == Fail(VersionMissing)
    ensures (c.releaseVersion.Some? && |c.releaseVersion.value| > 0 && c.githubLogin.Some? && |c.githubLogin.value| > 0)
            ==> G.ValidateParametersCorrected(Older(c)) == R.ValidateParameters(c)
  {
  }

  /**
    The dry-run gate: with `publishToGithub` TRUE and `dryRun` TRUE the
    `release-notes` goal publishes nothing and writes nothing, while the older variant
    publishes once per processed milestone.
   */
  lemma DryRunGateDiffers(c: R.Config, milestones: seq<Milestone>, template: Option<seq<string>>)
    requires R.ValidateParameters(c).Pass? && |c.releaseVersion.value| > 0
    requires c.publishToGithub == Some(true) && c.dryRun == Some(true)
    ensures R.Execute(c, milestones, template).value.actions == []
    ensures G.ExecuteAsWritten(Older(c), milestones, template).Ok?
    ensures Releases(G.ExecuteAsWritten(Older(c), milestones, template).value.actions)
         == CountMatches(c.releaseVersion.value, milestones)
  {
    R.DryRunHasNoEffect(c, milestones, template);
    G.ProcessMilestonesCounts(Older(c), c.releaseVersion.value, milestones, template);
  }
}

=== FILE: generate_release_notes_mojo.dfy ===
/**
  The older variant, a class with no Maven annotations. It does what
  `ReleaseNotesMojo` does, but has no dry-run mode: it publishes whenever `publishToGithub` is
  TRUE and always writes the page when the template exists. Its validation
  also rejects an empty version, but its login check tests the version's
  length instead of the login's, so an empty login passes.
  `ValidateParameters` and `ExecuteAsWritten` are the check and the run as
  written; `ValidateParametersCorrected` tests the login's length, and
  `Execute` is the run with it.
 */
module GenerateReleaseNotesMojo {
  import opened Wrappers
  import opened Strings
  import opened Sorting
  import opened Notes
  import opened Template
  import opened Plugin

  /** The variant's parameters: those of `ReleaseNotesMojo` without `dryRun`. */
  datatype Config = Config(
    releaseVersion: Option<string>,
    githubApiUrl: string,
    githubLogin: Option<string>,
    githubToken: Option<string>,
    githubPassword: Option<string>,
    publishToGithub: Option<bool>,
    releaseDate: string,
    releaseNotesFilePath: string)

  /**
    The validation as written: its login check tests the length of the
    version instead of the login, and the version is already known to be
    non-empty there, so only a missing login is rejected.
   */
  function ValidateParameters(c: Config): (r: Outcome<string>)
    ensures r.Pass? <==> c.releaseVersion.Some? && |c.releaseVersion.value| > 0 && c.githubLogin.Some?
                         && (c.githubPassword.Some? || c.githubToken.Some?)
    ensures c.releaseVersion.None? || c.releaseVersion == Some("") ==> r == Fail(VersionMissing)
    ensures c.releaseVersion.Some? && |c.releaseVersion.value| > 0 && c.githubLogin.None?
            ==> r == Fail(LoginMissing)
    ensures c.releaseVersion.Some? && |c.releaseVersion.value| > 0 && c.githubLogin.Some?
            && c.githubPassword.None? && c.githubToken.None?
            ==> r == Fail(CredentialMissing)
  {
    if c.releaseVersion.None? || |c.releaseVersion.value| == 0 then Fail(VersionMissing)
    else if c.githubLogin.None? || |c.releaseVersion.value| == 0 then Fail(LoginMissing)
    else if c.githubPassword.None? && c.githubToken.None? then Fail(CredentialMissing)
    else Pass
  }

  /** An empty login passes the check as written. */
  lemma EmptyLoginAccepted()
    ensures ValidateParameters(Config(Some("2.30"), "eclipse-ee4j/jersey", Some(""), None, Some("secret"),
                                      None, "", "target/release-notes")) == Pass
  {
  }

  /** The intended validation: the login check tests the login's own length. */
  function ValidateParametersCorrected(c: Config): (r: Outcome<string>)
    ensures r.Pass? <==> c.releaseVersion.Some? && |c.releaseVersion.value| > 0
                         && c.githubLogin.Some? && |c.githubLogin.value| > 0
                         && (c.githubPassword.Some? || c.githubToken.Some?)
    ensures c.releaseVersion.None? || c.releaseVersion == Some("") ==> r == Fail(VersionMissing)
    ensures c.releaseVersion.Some? && |c.releaseVersion.value| > 0
            && (c.githubLogin.None? || c.githubLogin == Some(""))
            ==> r == Fail(LoginMissing)
    ensures c.releaseVersion.Some? && |c.releaseVersion.value| > 0
            && c.githubLogin.Some? && |c.githubLogin.value| > 0
            && c.githubPassword.None? && c.githubToken.None?
            ==> r == Fail(CredentialMissing)
  {
    if c.releaseVersion.None? || |c.releaseVersion.value| == 0 then Fail(VersionMissing)
    else if c.githubLogin.None? || |c.githubLogin.value| == 0 then Fail(LoginMissing)
    else if c.githubPassword.None? && c.githubToken.None? then Fail(CredentialMissing)
    else Pass
  }

  /**
    The two checks differ exactly on a non-empty version with an empty
    login, which only the corrected check rejects.
   */
  lemma CorrectionOnlyRejectsEmptyLogin(c: Config)
    ensures ValidateParametersCorrected(c) != ValidateParameters(c)
            <==> c.releaseVersion.Some? && |c.releaseVersion.value| > 0 && c.githubLogin == Some("")
    ensures ValidateParametersCorrected(c).Pass? ==> ValidateParameters(c).Pass?
  {
  }

  /** The notes: the issues' entries, sorted by `Collections.sort`, appended one after another. */
  function PrepareReleaseNotes(issues: seq<Issue>): (notes: string)
    ensures |issues| == 0 ==> notes == ""
  {
    Concat(MergeSort(FormatAll(issues)))
  }

  /** The notes are the concatenation of any sorted rearrangement of the entries. */
  lemma PrepareReleaseNotesSorted(issues: seq<Issue>, lines: seq<string>)
    requires Sorted(lines) && multiset(lines) == multiset(FormatAll(issues))
    ensures PrepareReleaseNotes(issues) == Concat(lines)
  {
    SortedUnique(MergeSort(FormatAll(issues)), lines);
  }

  /** Publishing is on whenever `publishToGithub` is TRUE. */
  predicate PublishEnabled(c: Config) {
    c.publishToGithub == Some(true)
  }

  /** Writing the page: nothing when the template is missing, else always to `dir/version.html`. */
  function StoreReleaseNotes(notes: string, template: Option<seq<string>>, version: string,
                             date: string, dir: string): (actions: seq<Action>)
    ensures template.None? ==> actions == []
    ensures template.Some? ==>
              actions == [CreateDirectories(dir),
                          WriteFile(dir + "/" + version + ".html",
                                    Merge(template.value, Context(notes, version, date)))]
  {
    match template
    case None => []
    case Some(lines) =>
      [CreateDirectories(dir), WriteFile(OutputPath(dir, version), Merge(lines, Context(notes, version, date)))]
  }

  /** One milestone of the loop; `version` is the validated release version. */
  function ProcessMilestone(c: Config, version: string, m: Milestone, template: Option<seq<string>>): seq<Action> {
    if MilestoneMatches(version, m) then
      var notes := PrepareReleaseNotes(m.closedIssues);
      (if PublishEnabled(c) then [CreateRelease(version, version, notes)] else [])
      + StoreReleaseNotes(notes, template, version, c.releaseDate, c.releaseNotesFilePath)
    else
      []
  }

  /** The loop over all milestones, in the order the tracker lists them. */
  function ProcessMilestones(c: Config, version: string, milestones: seq<Milestone>,
                             template: Option<seq<string>>): seq<Action>
  {
    if |milestones| == 0 then []
    else ProcessMilestone(c, version, milestones[0], template)
         + ProcessMilestones(c, version, milestones[1..], template)
  }

  /**
    The run, with the corrected validation: a validation failure is raised
    before any connection; otherwise the run connects with the chosen
    credential and processes every milestone.
   */
  function Execute(c: Config, milestones: seq<Milestone>, template: Option<seq<string>>): (r: Result<Run, string>)
    ensures r.Err? <==> ValidateParametersCorrected(c).Fail?
    ensures r.Err? ==> r.error == ValidateParametersCorrected(c).error
    ensures r.Ok? ==> r.value.credential.login == c.githubLogin.value && |r.value.credential.login| > 0
    ensures r.Ok? ==> (r.value.credential.PasswordAuth? <==> c.githubPassword.Some?)
    ensures r.Ok? ==> r.value.repository == c.githubApiUrl
  {
    match ValidateParametersCorrected(c)
    case Fail(message) => Err(message)
    case Pass =>
      var version := c.releaseVersion.value;
      Ok(Run(ChooseCredential(c.githubLogin.value, c.githubPassword, c.githubToken), c.githubApiUrl,
             ProcessMilestones(c, version, milestones, template)))
  }

  /**
    The run as written: the same steps, with the login check that lets an
    empty login through, so the connection may use an empty login.
   */
  function ExecuteAsWritten(c: Config, milestones: seq<Milestone>, template: Option<seq<string>>): (r: Result<Run, string>)
    ensures r.Err? <==> ValidateParameters(c).Fail?
    ensures r.Err? ==> r.error == ValidateParameters(c).error
    ensures r.Ok? ==> r.value.credential.login == c.githubLogin.value
    ensures r.Ok? ==> (r.value.credential.PasswordAuth? <==> c.githubPassword.Some?)
    ensures r.Ok? ==> r.value.repository == c.githubApiUrl
  {
    match ValidateParameters(c)
    case Fail(message) => Err(message)
    case Pass =>
      var version := c.releaseVersion.value;
      Ok(Run(ChooseCredential(c.githubLogin.value, c.githubPassword, c.githubToken), c.githubApiUrl,
             ProcessMilestones(c, version, milestones, template)))
  }

  /**
    The correction changes the run only for an empty login with a non-empty
    version: there the written run may go ahead while the corrected one
    fails with the login message.
   */
  lemma ExecuteCorrectionOnlyEmptyLogin(c: Config, milestones: seq<Milestone>, template: Option<seq<string>>)
    ensures Execute(c, milestones, template) != ExecuteAsWritten(c, milestones, template)
            ==> c.releaseVersion.Some? && |c.releaseVersion.value| > 0 && c.githubLogin == Some("")
    ensures c.releaseVersion.Some? && |c.releaseVersion.value| > 0 && c.githubLogin == Some("")
            ==> Execute(c, milestones, template) == Err(LoginMissing)
  {
    CorrectionOnlyRejectsEmptyLogin(c);
  }

  lemma ProcessMilestoneCounts(c: Config, version: string, m: Milestone, template: Option<seq<string>>)
    ensures Releases(ProcessMilestone(c, version, m, template))
         == (if PublishEnabled(c) && MilestoneMatches(version, m) then 1 else 0)
    ensures Writes(ProcessMilestone(c, version, m, template))
         == (if template.Some? && MilestoneMatches(version, m) then 1 else 0)
  {
    if MilestoneMatches(version, m) {
      var notes := PrepareReleaseNotes(m.closedIssues);
      var release: seq<Action> := if PublishEnabled(c) then [CreateRelease(version, version, notes)] else [];
      var store := StoreReleaseNotes(notes, template, version, c.releaseDate, c.releaseNotesFilePath);
      CountsAppend(release, store);
      if PublishEnabled(c) {
        SingleCounts(CreateRelease(version, version, notes));
      }
      if template.Some? {
        StoreCounts(c.releaseNotesFilePath, store[1].path, store[1].lines);
      }
    }
  }

  /**
    Releases are created when `publishToGithub` is TRUE, one per processed
    milestone; a file is written per processed milestone whenever the
    template exists.
   */
  lemma {:induction false} ProcessMilestonesCounts(c: Config, version: string, milestones: seq<Milestone>,
                                                   template: Option<seq<string>>)
    ensures Releases(ProcessMilestones(c, version, milestones, template))
         == (if PublishEnabled(c) then CountMatches(version, milestones) else 0)
    ensures Writes(ProcessMilestones(c, version, milestones, template))
         == (if template.Some? then CountMatches(version, milestones) else 0)
    decreases |milestones|
  {
    if |milestones| > 0 {
      var head := ProcessMilestone(c, version, milestones[0], template);
      var tail := ProcessMilestones(c, version, milestones[1..], template);
      ProcessMilestoneCounts(c, version, milestones[0], template);
      ProcessMilestonesCounts(c, version, milestones[1..], template);
      CountsAppend(head, tail);
    }
  }
}

=== FILE: java_format.dfy ===
/**
  A subset of `java.lang.String.format`: the conversions `%s` and `%d`,
  which are all the plugin uses, without flags, width, precision or
  argument index; the escape `%%` is modelled as well. `%d` renders an integer in decimal, as `Integer.toString`
  does; `%s` renders a string as itself and an integer in decimal.
 */
module JavaFormat {
  import opened Wrappers
  import opened Seqs

  /** A format argument: the plugin passes strings and `int`s. */
  datatype Arg = Str(s: string) | Int(n: int)

  /** The exceptions `String.format` throws for the modelled subset. */
  datatype FormatError = UnknownConversion | MissingArgument | IllegalConversion

  // ---------------------------------------------------------------------
  // Decimal rendering and its inverse
  // ---------------------------------------------------------------------

  predicate IsDigit(c: char) {
    '0' <= c <= '9'
  }

  function DigitChar(d: nat): (c: char)
    requires d < 10
    ensures IsDigit(c)
  {
    ('0' as int + d) as char
  }

  function DigitValue(c: char): (d: nat)
    requires IsDigit(c)
    ensures d < 10 && DigitChar(d) == c
  {
    c as int - '0' as int
  }

  /** The decimal digits of `n`: non-empty, all digits, no leading zero. */
  function NatDecimal(n: nat): (r: string)
    ensures |r| > 0
    ensures forall i :: 0 <= i < |r| ==> IsDigit(r[i])
    ensures r[0] == '0' ==> n == 0
  {
    if n < 10 then [DigitChar(n)] else NatDecimal(n / 10) + [DigitChar(n % 10)]
  }

  /** `Integer.toString`: a minus sign before the digits of a negative number. */
  function Decimal(n: int): string {
    if n < 0 then "-" + NatDecimal(-n) else NatDecimal(n)
  }

  /** The value of a string of decimal digits. */
  function ParseNat(s: string): nat
    requires forall i :: 0 <= i < |s| ==> IsDigit(s[i])
  {
    if |s| == 0 then 0 else ParseNat(s[..|s| - 1]) * 10 + DigitValue(s[|s| - 1])
  }

  /** `Integer.parseInt` without the 32-bit range check: an optional minus and one or more digits. */
  function ParseInt(s: string): Option<int> {
    if |s| > 0 && s[0] == '-' then
      if |s| > 1 && forall i :: 1 <= i < |s| ==> IsDigit(s[i]) then Some(-(ParseNat(s[1..]) as int)) else None
    else
      if |s| > 0 && forall i :: 0 <= i < |s| ==> IsDigit(s[i]) then Some(ParseNat(s)) else None
  }

  lemma {:induction false} NatDecimalRoundTrip(n: nat)
    ensures ParseNat(NatDecimal(n)) == n
  {
    if n >= 10 {
      var r := NatDecimal(n);
      assert r[..|r| - 1] == NatDecimal(n / 10);
      NatDecimalRoundTrip(n / 10);
    }
  }

  /** Decimal rendering loses nothing: parsing it back gives the number. */
  lemma DecimalRoundTrip(n: int)
    ensures ParseInt(Decimal(n)) == Some(n)
  {
    var r := Decimal(n);
    if n < 0 {
      var d := NatDecimal(-n);
      NatDecimalRoundTrip(-n);
      assert r[1..] == d;
      assert forall i :: 1 <= i < |r| ==> IsDigit(r[i]) by {
        forall i | 1 <= i < |r| ensures IsDigit(r[i]) {
          assert r[i] == d[i - 1];
        }
      }
    } else {
      NatDecimalRoundTrip(n);
      assert IsDigit(r[0]);
    }
  }

  // ---------------------------------------------------------------------
  // Format strings
  // ---------------------------------------------------------------------

  /** No `%` in `s`: it is copied to the output literally. */
  predicate NoPercent(s: string) {
    forall i :: 0 <= i < |s| ==> s[i] != '%'
  }

  /** Every `%` starts a conversion the model knows; the format parser checks this first. */
  predicate WellFormed(fmt: string)
    decreases |fmt|
  {
    if |fmt| == 0 then true
    else if fmt[0] != '%' then WellFormed(fmt[1..])
    else |fmt| >= 2 && (fmt[1] == 's' || fmt[1] == 'd' || fmt[1] == '%') && WellFormed(fmt[2..])
  }

  /** One argument under conversion `s` or `d`: `%d` of a string is illegal. */
  function Convert(conversion: char, arg: Arg): Result<string, FormatError> {
    match arg
    case Str(s) => if conversion == 's' then Ok(s) else Err(IllegalConversion)
    case Int(n) => Ok(Decimal(n))
  }

  /** Puts `text` in front of a successful output. */
  function Prepend(text: string, r: Result<string, FormatError>): Result<string, FormatError> {
    match r
    case Ok(s) => Ok(text + s)
    case Err(e) => Err(e)
  }

  lemma PrependTwice(a: string, b: string, r: Result<string, FormatError>)
    ensures Prepend(a, Prepend(b, r)) == Prepend(a + b, r)
  {
    if r.Ok? {
      assert a + (b + r.value) == (a + b) + r.value;
    }
  }

  /** Consumes the format left to right and the arguments in order. */
  function Render(fmt: string, args: seq<Arg>): Result<string, FormatError>
    decreases |fmt|
  {
    if |fmt| == 0 then Ok("")
    else if fmt[0] != '%' then Prepend([fmt[0]], Render(fmt[1..], args))
    else if |fmt| < 2 then Err(UnknownConversion)
    else if fmt[1] == '%' then Prepend("%", Render(fmt[2..], args))
    else if fmt[1] != 's' && fmt[1] != 'd' then Err(UnknownConversion)
    else if |args| == 0 then Err(MissingArgument)
    else
      match Convert(fmt[1], args[0])
      case Err(e) => Err(e)
      case Ok(text) => Prepend(text, Render(fmt[2..], args[1..]))
  }

  /** `String.format(fmt, args)`; surplus arguments are ignored, as in Java. */
  function Format(fmt: string, args: seq<Arg>): Result<string, FormatError> {
    if WellFormed(fmt) then Render(fmt, args) else Err(UnknownConversion)
  }

  /** A literal stretch of the format is copied as is. */
  lemma {:induction false} RenderLiteral(lit: string, rest: string, args: seq<Arg>)
    requires NoPercent(lit)
    ensures Render(lit + rest, args) == Prepend(lit, Render(rest, args))
    ensures WellFormed(lit + rest) == WellFormed(rest)
    decreases |lit|
  {
    if |lit| > 0 {
      assert (lit + rest)[0] == lit[0];
      assert (lit + rest)[1..] == lit[1..] + rest;
      RenderLiteral(lit[1..], rest, args);
      PrependTwice([lit[0]], lit[1..], Render(rest, args));
      assert lit == [lit[0]] + lit[1..];
    } else {
      assert lit + rest == rest;
      if Render(rest, args).Ok? {
        assert lit + Render(rest, args).value == Render(rest, args).value;
      }
    }
  }

  /** A literal stretch followed by one conversion consumes one argument. */
  lemma RenderStep(lit: string, conversion: char, rest: string, arg: Arg, args: seq<Arg>)
    requires NoPercent(lit) && (conversion == 's' || conversion == 'd')
    requires Convert(conversion, arg).Ok?
    ensures Render(lit + ['%', conversion] + rest, [arg] + args)
         == Prepend(lit + Convert(conversion, arg).value, Render(rest, args))
    ensures WellFormed(lit + ['%', conversion] + rest) == WellFormed(rest)
  {
    var tail := ['%', conversion] + rest;
    assert lit + ['%', conversion] + rest == lit + tail;
    RenderLiteral(lit, tail, [arg] + args);
    assert tail[2..] == rest;
    assert ([arg] + args)[1..] == args;
    PrependTwice(lit, Convert(conversion, arg).value, Render(rest, args));
  }

  /** A format without `%` renders to itself, whatever the arguments. */
  lemma FormatPlain(s: string, args: seq<Arg>)
    requires NoPercent(s)
    ensures WellFormed(s) && Render(s, args) == Ok(s)
    ensures Format(s, args) == Ok(s)
  {
    RenderLiteral(s, "", args);
    assert s + "" == s;
  }

  /** A literal, a conversion, a literal, a conversion, a literal: two arguments fill it. */
  lemma RenderTwo(l0: string, c0: char, l1: string, c1: char, l2: string, a0: Arg, a1: Arg)
    requires NoPercent(l0) && NoPercent(l1) && NoPercent(l2)
    requires (c0 == 's' || c0 == 'd') && (c1 == 's' || c1 == 'd')
    requires Convert(c0, a0).Ok? && Convert(c1, a1).Ok?
    ensures WellFormed(l0 + ['%', c0] + l1 + ['%', c1] + l2)
    ensures Render(l0 + ['%', c0] + l1 + ['%', c1] + l2, [a0, a1])
         == Ok(l0 + Convert(c0, a0).value + l1 + Convert(c1, a1).value + l2)
  {
    var p0, p1 := ['%', c0], ['%', c1];
    var head := l0 + p0;
    var t1 := l1 + p1 + l2;
    AppendAssoc(head, l1, p1);
    AppendAssoc(head, l1 + p1, l2);
    assert [a0, a1] == [a0] + [a1] && [a1] == [a1] + [];
    RenderStep(l0, c0, t1, a0, [a1]);
    RenderStep(l1, c1, l2, a1, []);
    FormatPlain(l2, []);
    var v0, v1 := Convert(c0, a0).value, Convert(c1, a1).value;
    AppendAssoc(l0 + v0, l1 + v1, l2);
    AppendAssoc(l0 + v0, l1, v1);
  }

  /**
    The shape shared by the link and path formats of the plugin: two
    conversions between literals.
   */
  lemma FormatTwo(l0: string, c0: char, l1: string, c1: char, l2: string, a0: Arg, a1: Arg)
    requires NoPercent(l0) && NoPercent(l1) && NoPercent(l2)
    requires (c0 == 's' || c0 == 'd') && (c1 == 's' || c1 == 'd')
    requires Convert(c0, a0).Ok? && Convert(c1, a1).Ok?
    ensures Format(l0 + ['%', c0] + l1 + ['%', c1] + l2, [a0, a1])
         == Ok(l0 + Convert(c0, a0).value + l1 + Convert(c1, a1).value + l2)
  {
    RenderTwo(l0, c0, l1, c1, l2, a0, a1);
  }

  /** Three arguments in the same shape, one conversion longer: the line formats. */
  lemma FormatThree(l0: string, c0: char, l1: string, c1: char, l2: string, c2: char, l3: string,
                    a0: Arg, a1: Arg, a2: Arg)
    requires NoPercent(l0) && NoPercent(l1) && NoPercent(l2) && NoPercent(l3)
    requires (c0 == 's' || c0 == 'd') && (c1 == 's' || c1 == 'd') && (c2 == 's' || c2 == 'd')
    requires Convert(c0, a0).Ok? && Convert(c1, a1).Ok? && Convert(c2, a2).Ok?
    ensures Format(l0 + ['%', c0] + l1 + ['%', c1] + l2 + ['%', c2] + l3, [a0, a1, a2])
         == Ok(l0 + Convert(c0, a0).value + l1 + Convert(c1, a1).value
                  + l2 + Convert(c2, a2).value + l3)
  {
    var p0, p1, p2 := ['%', c0], ['%', c1], ['%', c2];
    var head := l0 + p0;
    var t1 := l1 + p1 + l2 + p2 + l3;
    AppendAssoc(head, l1, p1);
    AppendAssoc(head, l1 + p1, l2);
    AppendAssoc(head, l1 + p1 + l2, p2);
    AppendAssoc(head, l1 + p1 + l2 + p2, l3);
    assert [a0, a1, a2] == [a0] + [a1, a2];
    RenderStep(l0, c0, t1, a0, [a1, a2]);
    RenderTwo(l1, c1, l2, c2, l3, a1, a2);
    var v0, v1, v2 := Convert(c0, a0).value, Convert(c1, a1).value, Convert(c2, a2).value;
    var b := l0 + v0;
    AppendAssoc(b, l1, v1);
    AppendAssoc(b, l1 + v1, l2);
    AppendAssoc(b, l1 + v1 + l2, v2);
    AppendAssoc(b, l1 + v1 + l2 + v2, l3);
  }
}

=== FILE: notes.dfy ===
/**
  Closed issues and pull requests, and the one-line HTML list item each of
  them becomes in the release notes. Both mojos use the same two format
  strings.
 */
module Notes {
  import opened Wrappers
  import opened JavaFormat
  import opened Seqs

  /** A closed issue or pull request of a milestone, as the tracker reports it. */
  datatype Issue = Issue(htmlUrl: string, number: int, title: string, isPullRequest: bool)

  /**
    The two line formats. Each is written as its literal pieces joined
    around the conversions, so that the format's shape (`LineFormatShape`)
    follows without the prover comparing long literals character by
    character; the joined string is the same.
   */
  const PullRequestFormat: string := "<li>[<a href='" + "%s" + "'>Pull " + "%d" + "</a>] - " + "%s" + "</li>\n"
  const IssueFormat: string := "<li>[<a href='" + "%s" + "'>Issue " + "%d" + "</a>] - " + "%s" + "</li>\n"

  /**
    The middle literal of the line format, between the url and the number:
    it names the kind of item.
   */
  function KindLiteral(issue: Issue): string {
    if issue.isPullRequest then "'>Pull " else "'>Issue "
  }

  /** The line format is a literal, `%s`, a literal, `%d`, a literal, `%s`, a literal. */
  lemma LineFormatShape(issue: Issue)
    ensures (if issue.isPullRequest then PullRequestFormat else IssueFormat)
         == "<li>[<a href='" + ['%', 's'] + KindLiteral(issue) + ['%', 'd'] + "</a>] - " + ['%', 's'] + "</li>\n"
  {
    if issue.isPullRequest {
      PullFormatShape();
    } else {
      IssueFormatShape();
    }
  }

  lemma PullFormatShape()
    ensures PullRequestFormat
         == "<li>[<a href='" + ['%', 's'] + "'>Pull " + ['%', 'd'] + "</a>] - " + ['%', 's'] + "</li>\n"
  {
  }

  lemma IssueFormatShape()
    ensures IssueFormat
         == "<li>[<a href='" + ['%', 's'] + "'>Issue " + ['%', 'd'] + "</a>] - " + ['%', 's'] + "</li>\n"
  {
  }

  /** `String.format` fills the line format with url, number and title. */
  lemma LineFormatRenders(issue: Issue)
    ensures Format(if issue.isPullRequest then PullRequestFormat else IssueFormat,
                   [Str(issue.htmlUrl), Int(issue.number), Str(issue.title)])
         == Ok("<li>[<a href='" + issue.htmlUrl + KindLiteral(issue) + Decimal(issue.number)
               + "</a>] - " + issue.title + "</li>\n")
  {
    LineFormatShape(issue);
    assert NoPercent("<li>[<a href='") && NoPercent(KindLiteral(issue));
    assert NoPercent("</a>] - ") && NoPercent("</li>\n");
    FormatThree("<li>[<a href='", 's', KindLiteral(issue), 'd', "</a>] - ", 's', "</li>\n",
                Str(issue.htmlUrl), Int(issue.number), Str(issue.title));
  }

  /**
    One list entry: `<li>[<a href='URL'>Pull N</a>] - TITLE</li>` and a
    newline for a pull request, with `Issue` in place of `Pull` otherwise
    (`KindLiteral` is `'>Pull ` or `'>Issue `), and N in decimal.
   */
  function FormatLine(issue: Issue): (line: string)
    ensures line == "<li>[<a href='" + issue.htmlUrl + KindLiteral(issue) + Decimal(issue.number)
                    + "</a>] - " + issue.title + "</li>\n"
  {
    LineFormatRenders(issue);
    Format(if issue.isPullRequest then PullRequestFormat else IssueFormat,
           [Str(issue.htmlUrl), Int(issue.number), Str(issue.title)]).value
  }

  /** The entries of the issues, in the order the tracker listed them. */
  function FormatAll(issues: seq<Issue>): (lines: seq<string>)
    ensures |lines| == |issues|
    ensures forall i :: 0 <= i < |issues| ==> lines[i] == FormatLine(issues[i])
  {
    MapSeq(FormatLine, issues)
  }

  /** Rearranging the issues rearranges their entries the same way. */
  lemma FormatAllPermutes(a: seq<Issue>, b: seq<Issue>)
    requires multiset(a) == multiset(b)
    ensures multiset(FormatAll(a)) == multiset(FormatAll(b))
  {
    MapSeqPermutes(FormatLine, a, b);
  }
}

=== FILE: plugin.dfy ===
/**
  What the mojos read from the issue tracker and what they ask the outside
  world to do. Tracker calls and file-system writes are not performed: a
  run returns them as a list of actions, in the order the source performs
  them.
 */
module Plugin {
  import opened Wrappers
  import opened Strings
  import opened Notes

  /** A milestone with the closed issues and pull requests assigned to it. */
  datatype Milestone = Milestone(title: string, closedIssues: seq<Issue>)

  /** A milestone is processed when its title equals the version, ignoring case. */
  predicate MilestoneMatches(version: string, m: Milestone) {
    EqualsIgnoreCase(version, m.title)
  }

  /**
    Matching ignores the case of ASCII letters and nothing else: it holds
    exactly when the upper-cased title is the upper-cased version, and it is
    an equivalence.
   */
  lemma MilestoneMatchesIgnoringCase(version: string, m: Milestone, n: Milestone)
    ensures MilestoneMatches(version, m) <==> ToUpper(version) == ToUpper(m.title)
    ensures m.title == version ==> MilestoneMatches(version, m)
    ensures MilestoneMatches(version, m) && EqualsIgnoreCase(m.title, n.title) ==> MilestoneMatches(version, n)
  {
    EqualsIgnoreCaseIffSameUpper(version, m.title);
    EqualsIgnoreCaseEquivalence(version, m.title, n.title);
  }

  /** How many of the milestones are processed. */
  function CountMatches(version: string, milestones: seq<Milestone>): nat {
    if |milestones| == 0 then 0
    else (if MilestoneMatches(version, milestones[0]) then 1 else 0) + CountMatches(version, milestones[1..])
  }

  /** How the tracker connection is authenticated. */
  datatype Credential =
    | PasswordAuth(login: string, password: string)
    | TokenAuth(login: string, token: string)

  datatype Action =
    /** A new tracker release tagged and named `tag`, with the notes as its body. */
    | CreateRelease(tag: string, name: string, body: string)
    /** Creating the output directory and its parents. */
    | CreateDirectories(dir: string)
    /** Writing `lines` to the file at `path`, replacing it. */
    | WriteFile(path: string, lines: seq<string>)

  /** Password authentication whenever a password is given, else the token. */
  function ChooseCredential(login: string, password: Option<string>, token: Option<string>): (cred: Credential)
    requires password.Some? || token.Some?
    ensures cred.login == login
    ensures cred.PasswordAuth? <==> password.Some?
    ensures cred.PasswordAuth? ==> cred.password == password.value
    ensures cred.TokenAuth? ==> token == Some(cred.token)
  {
    match password
    case Some(p) => PasswordAuth(login, p)
    case None => TokenAuth(login, token.value)
  }

  /** The messages of the validation failures. */
  const VersionMissing: string := "releaseVersion shall be provided"
  const LoginMissing: string := "githubLogin shall be provided"
  const CredentialMissing: string := "either githubPassword or githubToken shall be provided"

  /** A run that passed validation: its connection and its effects. */
  datatype Run = Run(credential: Credential, repository: string, actions: seq<Action>)

  /** How many releases the actions create. */
  function Releases(actions: seq<Action>): nat {
    if |actions| == 0 then 0
    else (if actions[0].CreateRelease? then 1 else 0) + Releases(actions[1..])
  }

  /** How many files the actions write. */
  function Writes(actions: seq<Action>): nat {
    if |actions| == 0 then 0
    else (if actions[0].WriteFile? then 1 else 0) + Writes(actions[1..])
  }

  lemma {:induction false} CountsAppend(a: seq<Action>, b: seq<Action>)
    ensures Releases(a + b) == Releases(a) + Releases(b)
    ensures Writes(a + b) == Writes(a) + Writes(b)
    decreases |a|
  {
    if |a| > 0 {
      assert (a + b)[0] == a[0];
      assert (a + b)[1..] == a[1..] + b;
      CountsAppend(a[1..], b);
    } else {
      assert a + b == b;
    }
  }

  /** A single action counts as what it is. */
  lemma SingleCounts(a: Action)
    ensures Releases([a]) == (if a.CreateRelease? then 1 else 0)
    ensures Writes([a]) == (if a.WriteFile? then 1 else 0)
  {
    assert [a][1..] == [];
  }

  /** The two actions that store a page write one file and create no release. */
  lemma StoreCounts(dir: string, path: string, lines: seq<string>)
    ensures Releases([CreateDirectories(dir), WriteFile(path, lines)]) == 0
    ensures Writes([CreateDirectories(dir), WriteFile(path, lines)]) == 1
  {
    assert [CreateDirectories(dir), WriteFile(path, lines)] == [CreateDirectories(dir)] + [WriteFile(path, lines)];
    CountsAppend([CreateDirectories(dir)], [WriteFile(path, lines)]);
    SingleCounts(CreateDirectories(dir));
    SingleCounts(WriteFile(path, lines));
  }
}

=== FILE: release_notes_mojo.dfy ===
/**
  The `release-notes` goal: validate the parameters, connect, and for every
  milestone whose title is the release version ignoring case, build the
  notes, publish them when `publishToGithub` is TRUE and `dryRun` is FALSE,
  and, when the template exists, merge them into it and write the page
  unless `dryRun` is TRUE or null.
 */
module ReleaseNotesMojo {
  import opened Wrappers
  import opened Strings
  import opened Sorting
  import opened Notes
  import opened Template
  import opened Plugin

  /**
    The goal's parameters. Strings that may be missing are `Option`s;
    `publishToGithub` and `dryRun` are `Boolean` objects, so they may be
    null too. The template file is passed to `Execute` by content.
   */
  datatype Config = Config(
    releaseVersion: Option<string>,
    githubApiUrl: string,
    githubLogin: Option<string>,
    githubToken: Option<string>,
    githubPassword: Option<string>,
    publishToGithub: Option<bool>,
    dryRun: Option<bool>,
    releaseDate: string,
    releaseNotesFilePath: string)

  /**
    Parameter validation: the version, the login, and a password or token
    must be present, checked in that order; the first failure is reported.
   */
  function ValidateParameters(c: Config): (r: Outcome<string>)
    ensures r.Pass? <==> c.releaseVersion.Some? && c.githubLogin.Some?
                         && (c.githubPassword.Some? || c.githubToken.Some?)
    ensures c.releaseVersion.None? ==> r == Fail(VersionMissing)
    ensures c.releaseVersion.Some? && c.githubLogin.None? ==> r == Fail(LoginMissing)
    ensures c.releaseVersion.Some? && c.githubLogin.Some? && c.githubPassword.None? && c.githubToken.None?
            ==> r == Fail(CredentialMissing)
  {
    if c.releaseVersion.None? then Fail(VersionMissing)
    else if c.githubLogin.None? then Fail(LoginMissing)
    else if c.githubPassword.None? && c.githubToken.None? then Fail(CredentialMissing)
    else Pass
  }

  /** The notes: the issues' entries, sorted by `Stream.sorted()`, appended one after another. */
  function PrepareReleaseNotes(issues: seq<Issue>): (notes: string)
    ensures |issues| == 0 ==> notes == ""
  {
    Concat(InsertionSort(FormatAll(issues)))
  }

  /** A single issue's notes are its entry alone. */
  lemma PrepareReleaseNotesSingle(issue: Issue)
    ensures PrepareReleaseNotes([issue]) == FormatLine(issue)
  {
    var lines := FormatAll([issue]);
    assert lines == [FormatLine(issue)];
    assert InsertionSort(lines) == Insert(FormatLine(issue), []);
    assert Concat([FormatLine(issue)]) == Concat([]) + FormatLine(issue);
  }

  /**
    The notes are the concatenation of the entries in ascending order:
    for any sorted rearrangement of the entries, they are its concatenation.
   */
  lemma PrepareReleaseNotesSorted(issues: seq<Issue>, lines: seq<string>)
    requires Sorted(lines) && multiset(lines) == multiset(FormatAll(issues))
    ensures PrepareReleaseNotes(issues) == Concat(lines)
  {
    SortedUnique(InsertionSort(FormatAll(issues)), lines);
  }

  /** The notes do not depend on the order in which the tracker lists the issues. */
  lemma PrepareReleaseNotesOrderIndependent(a: seq<Issue>, b: seq<Issue>)
    requires multiset(a) == multiset(b)
    ensures PrepareReleaseNotes(a) == PrepareReleaseNotes(b)
  {
    FormatAllPermutes(a, b);
    SortedUnique(InsertionSort(FormatAll(a)), InsertionSort(FormatAll(b)));
  }

  /** Publishing is on when `publishToGithub` is TRUE and `dryRun` is FALSE. */
  predicate PublishEnabled(c: Config) {
    c.publishToGithub == Some(true) && c.dryRun == Some(false)
  }

  /**
    Writing the page: nothing when the template is missing; otherwise the
    merged lines, which are written to `dir/version.html` unless in dry-run
    mode (`dryRun` not FALSE).
   */
  function StoreReleaseNotes(notes: string, template: Option<seq<string>>, version: string,
                             date: string, dir: string, dryRun: Option<bool>): (actions: seq<Action>)
    ensures template.None? || dryRun != Some(false) ==> actions == []
    ensures template.Some? && dryRun == Some(false) ==>
              actions == [CreateDirectories(dir),
                          WriteFile(dir + "/" + version + ".html",
                                    Merge(template.value, Context(notes, version, date)))]
  {
    match template
    case None => []
    case Some(lines) =>
      var merged := Merge(lines, Context(notes, version, date));
      if dryRun == Some(false) then
        [CreateDirectories(dir), WriteFile(OutputPath(dir, version), merged)]
      else
        []
  }

  /** One milestone of the loop; `version` is the validated release version. */
  function ProcessMilestone(c: Config, version: string, m: Milestone, template: Option<seq<string>>): seq<Action> {
    if MilestoneMatches(version, m) then
      var notes := PrepareReleaseNotes(m.closedIssues);
      (if PublishEnabled(c) then [CreateRelease(version, version, notes)] else [])
      + StoreReleaseNotes(notes, template, version, c.releaseDate, c.releaseNotesFilePath, c.dryRun)
    else
      []
  }

  /** The loop over all milestones, in the order the tracker lists them. */
  function ProcessMilestones(c: Config, version: string, milestones: seq<Milestone>,
                             template: Option<seq<string>>): seq<Action>
  {
    if |milestones| == 0 then []
    else ProcessMilestone(c, version, milestones[0], template)
         + ProcessMilestones(c, version, milestones[1..], template)
  }

  /**
    The goal: a validation failure is raised before any connection;
    otherwise the run connects with the chosen credential and processes
    every milestone. `template` is the template file's lines, or `None`
    when the file does not exist.
   */
  function Execute(c: Config, milestones: seq<Milestone>, template: Option<seq<string>>): (r: Result<Run, string>)
    ensures r.Err? <==> ValidateParameters(c).Fail?
    ensures r.Err? ==> r.error == ValidateParameters(c).error
    ensures r.Ok? ==> r.value.credential == ChooseCredential(c.githubLogin.value, c.githubPassword, c.githubToken) && r.value.repository == c.githubApiUrl
  {
    match ValidateParameters(c)
    case Fail(message) => Err(message)
    case Pass =>
      var version := c.releaseVersion.value;
      Ok(Run(ChooseCredential(c.githubLogin.value, c.githubPassword, c.githubToken), c.githubApiUrl, ProcessMilestones(c, version, milestones, template)))
  }

  lemma ProcessMilestoneCounts(c: Config, version: string, m: Milestone, template: Option<seq<string>>)
    ensures Releases(ProcessMilestone(c, version, m, template))
         == (if PublishEnabled(c) && MilestoneMatches(version, m) then 1 else 0)
    ensures Writes(ProcessMilestone(c, version, m, template))
         == (if template.Some? && c.dryRun == Some(false) && MilestoneMatches(version, m) then 1 else 0)
  {
    if MilestoneMatches(version, m) {
      var notes := PrepareReleaseNotes(m.closedIssues);
      var release: seq<Action> := if PublishEnabled(c) then [CreateRelease(version, version, notes)] else [];
      var store := StoreReleaseNotes(notes, template, version, c.releaseDate, c.releaseNotesFilePath, c.dryRun);
      CountsAppend(release, store);
      if PublishEnabled(c) {
        SingleCounts(CreateRelease(version, version, notes));
      }
      if template.Some? && c.dryRun == Some(false) {
        StoreCounts(c.releaseNotesFilePath, store[1].path, store[1].lines);
      }
    }
  }

  /**
    Releases are created only when publishing is on, one per processed
    milestone; files are written only when the template exists and dry-run
    is off, one per processed milestone.
   */
  lemma {:induction false} ProcessMilestonesCounts(c: Config, version: string, milestones: seq<Milestone>,
                                                   template: Option<seq<string>>)
    ensures Releases(ProcessMilestones(c, version, milestones, template))
         == (if PublishEnabled(c) then CountMatches(version, milestones) else 0)
    ensures Writes(ProcessMilestones(c, version, milestones, template))
         == (if template.Some? && c.dryRun == Some(false) then CountMatches(version, milestones) else 0)
    decreases |milestones|
  {
    if |milestones| > 0 {
      var head := ProcessMilestone(c, version, milestones[0], template);
      var tail := ProcessMilestones(c, version, milestones[1..], template);
      ProcessMilestoneCounts(c, version, milestones[0], template);
      ProcessMilestonesCounts(c, version, milestones[1..], template);
      CountsAppend(head, tail);
    }
  }

  /**
    What milestone `m` accounts for action `a`: `m` is processed, and `a` is
    the release of its notes, tagged and named with the version, while
    publishing is on; or, while the template exists and dry-run is off, the
    output directory or the template merged with its notes written to
    `dir/version.html`.
   */
  predicate Explains(c: Config, version: string, m: Milestone, template: Option<seq<string>>, a: Action) {
    MilestoneMatches(version, m) &&
    match a
    case CreateRelease(tag, name, body) =>
      PublishEnabled(c) && tag == version && name == version && body == PrepareReleaseNotes(m.closedIssues)
    case CreateDirectories(dir) =>
      dir == c.releaseNotesFilePath && template.Some? && c.dryRun == Some(false)
    case WriteFile(path, lines) =>
      path == c.releaseNotesFilePath + "/" + version + ".html" && template.Some? && c.dryRun == Some(false) &&
      lines == Merge(template.value, Context(PrepareReleaseNotes(m.closedIssues), version, c.releaseDate))
  }

  lemma ProcessMilestoneExplained(c: Config, version: string, m: Milestone, template: Option<seq<string>>)
    ensures forall a :: a in ProcessMilestone(c, version, m, template) ==> Explains(c, version, m, template, a)
  {
  }

  /** Every action of a run is accounted for by some processed milestone. */
  lemma {:induction false} ProcessMilestonesActions(c: Config, version: string, milestones: seq<Milestone>,
                                                    template: Option<seq<string>>)
    ensures forall a :: a in ProcessMilestones(c, version, milestones, template) ==>
              exists m :: m in milestones && Explains(c, version, m, template, a)
    decreases |milestones|
  {
    if |milestones| > 0 {
      var head := ProcessMilestone(c, version, milestones[0], template);
      var tail := ProcessMilestones(c, version, milestones[1..], template);
      ProcessMilestoneExplained(c, version, milestones[0], template);
      ProcessMilestonesActions(c, version, milestones[1..], template);
      forall a | a in head + tail
        ensures exists m :: m in milestones && Explains(c, version, m, template, a)
      {
        if a in head {
          assert milestones[0] in milestones;
        } else {
          var m :| m in milestones[1..] && Explains(c, version, m, template, a);
          assert m in milestones;
        }
      }
    }
  }

  /** In dry-run mode, or with `dryRun` null, a run has no effect at all. */
  lemma DryRunHasNoEffect(c: Config, milestones: seq<Milestone>, template: Option<seq<string>>)
    requires ValidateParameters(c).Pass?
    requires c.dryRun != Some(false)
    ensures Execute(c, milestones, template).value.actions == []
  {
    ProcessMilestonesDryRun(c, c.releaseVersion.value, milestones, template);
  }

  lemma {:induction false} ProcessMilestonesDryRun(c: Config, version: string, milestones: seq<Milestone>,
                                                   template: Option<seq<string>>)
    requires c.dryRun != Some(false)
    ensures ProcessMilestones(c, version, milestones, template) == []
    decreases |milestones|
  {
    if |milestones| > 0 {
      ProcessMilestonesDryRun(c, version, milestones[1..], template);
      assert ProcessMilestone(c, version, milestones[0], template) == [];
    }
  }
}

=== FILE: seqs.dfy ===
/** Elementwise operations on sequences, used for lists of issues and template lines. */
module Seqs {

  function MapSeq<A, B>(f: A -> B, s: seq<A>): (r: seq<B>)
    ensures |r| == |s|
    ensures forall i :: 0 <= i < |s| ==> r[i] == f(s[i])
  {
    seq(|s|, i requires 0 <= i < |s| => f(s[i]))
  }

  lemma MapSeqAppend<A, B>(f: A -> B, a: seq<A>, b: seq<A>)
    ensures MapSeq(f, a + b) == MapSeq(f, a) + MapSeq(f, b)
  {
    assert forall i :: 0 <= i < |a + b| ==> MapSeq(f, a + b)[i] == (MapSeq(f, a) + MapSeq(f, b))[i];
  }

  lemma MapSeqCons<A, B>(f: A -> B, s: seq<A>)
    requires |s| > 0
    ensures MapSeq(f, s) == [f(s[0])] + MapSeq(f, s[1..])
  {
    assert forall i :: 0 <= i < |s| ==> MapSeq(f, s)[i] == ([f(s[0])] + MapSeq(f, s[1..]))[i];
  }

  /** Removing the element at `k` removes its image from the mapped multiset. */
  lemma MapSeqRemove<A, B>(f: A -> B, b: seq<A>, k: int)
    requires 0 <= k < |b|
    ensures multiset(b[..k] + b[k + 1..]) == multiset(b) - multiset{b[k]}
    ensures multiset(MapSeq(f, b)) == multiset(MapSeq(f, b[..k] + b[k + 1..])) + multiset{f(b[k])}
  {
    var left, right := b[..k], b[k + 1..];
    assert b == left + [b[k]] + right;
    MapSeqAppend(f, left + [b[k]], right);
    MapSeqAppend(f, left, [b[k]]);
    MapSeqAppend(f, left, right);
    assert MapSeq(f, [b[k]]) == [f(b[k])];
  }

  /** An element of the multiset of a sequence sits at some index. */
  lemma FindIndex<A>(b: seq<A>, x: A) returns (k: int)
    requires x in multiset(b)
    ensures 0 <= k < |b| && b[k] == x
  {
    assert x in b;
    k :| 0 <= k < |b| && b[k] == x;
  }

  /** Dropping the first element drops its image. */
  lemma MapSeqUncons<A, B>(f: A -> B, a: seq<A>)
    requires |a| > 0
    ensures multiset(a[1..]) == multiset(a) - multiset{a[0]}
    ensures multiset(MapSeq(f, a)) == multiset(MapSeq(f, a[1..])) + multiset{f(a[0])}
  {
    assert a == [a[0]] + a[1..];
    assert multiset(a) == multiset{a[0]} + multiset(a[1..]);
    MapSeqCons(f, a);
    assert multiset(MapSeq(f, a)) == multiset{f(a[0])} + multiset(MapSeq(f, a[1..]));
  }

  /** Rearranging the inputs rearranges the outputs the same way. */
  lemma {:induction false} MapSeqPermutes<A, B>(f: A -> B, a: seq<A>, b: seq<A>)
    requires multiset(a) == multiset(b)
    ensures multiset(MapSeq(f, a)) == multiset(MapSeq(f, b))
    decreases |a|
  {
    if |a| == 0 {
      assert |b| == |multiset(b)| == 0;
    } else {
      var k := FindIndex(b, a[0]);
      var rest := b[..k] + b[k + 1..];
      MapSeqRemove(f, b, k);
      MapSeqUncons(f, a);
      MapSeqPermutes(f, a[1..], rest);
    }
  }

  /** Concatenation is associative. */
  lemma AppendAssoc<T>(a: seq<T>, b: seq<T>, c: seq<T>)
    ensures (a + b) + c == a + (b + c)
  {
  }

  /** Applies `f` to every element and concatenates the results in order. */
  function FlatMap<A, B>(f: A -> seq<B>, s: seq<A>): seq<B> {
    if |s| == 0 then [] else f(s[0]) + FlatMap(f, s[1..])
  }

  /** Flat-mapping distributes over concatenation. */
  lemma {:induction false} FlatMapAppend<A, B>(f: A -> seq<B>, a: seq<A>, b: seq<A>)
    ensures FlatMap(f, a + b) == FlatMap(f, a) + FlatMap(f, b)
    decreases |a|
  {
    if |a| > 0 {
      assert (a + b)[0] == a[0];
      assert (a + b)[1..] == a[1..] + b;
      FlatMapAppend(f, a[1..], b);
    } else {
      assert a + b == b;
    }
  }
}

=== FILE: sorting.dfy ===
/**
  Sorting lists of strings in their natural order. The plugin sorts twice,
  once with `Stream.sorted()` and once with `Collections.sort`; both are
  stable comparison sorts, modelled here by an insertion sort and a merge
  sort. Because equal strings are indistinguishable, a sorted permutation
  is unique (`SortedUnique`), so every correct sort gives the same list.
 */
module Sorting {
  import opened Strings

  /** Every element sorts before or equal to every later element. */
  ghost predicate Sorted(s: seq<string>) {
    forall i, j :: 0 <= i < j < |s| ==> LessEq(s[i], s[j])
  }

  /** A lower bound for `pool` is a lower bound for any rearrangement of it. */
  lemma LowerBoundCarries(lo: string, r: seq<string>, pool: seq<string>)
    requires multiset(r) == multiset(pool)
    requires forall k :: 0 <= k < |pool| ==> LessEq(lo, pool[k])
    ensures forall j :: 0 <= j < |r| ==> LessEq(lo, r[j])
  {
    forall j | 0 <= j < |r|
      ensures LessEq(lo, r[j])
    {
      assert r[j] in multiset(r);
      var k :| 0 <= k < |pool| && pool[k] == r[j];
    }
  }

  /** `[x] + s` is sorted when `s` is and `x` is a lower bound of it. */
  lemma ConsSorted(x: string, s: seq<string>)
    requires Sorted(s)
    requires forall j :: 0 <= j < |s| ==> LessEq(x, s[j])
    ensures Sorted([x] + s)
  {
    var r := [x] + s;
    forall i, j | 0 <= i < j < |r|
      ensures LessEq(r[i], r[j])
    {
      if i > 0 {
        assert r[i] == s[i - 1] && r[j] == s[j - 1];
      }
    }
  }

  /** Placing the head of `s` before the insertion of `x` into its tail keeps the order. */
  lemma InsertBehindHead(x: string, s: seq<string>, rest: seq<string>)
    requires Sorted(s) && |s| > 0 && !LessEq(x, s[0])
    requires Sorted(rest) && multiset(rest) == multiset(s[1..]) + multiset{x}
    ensures Sorted([s[0]] + rest)
    ensures multiset([s[0]] + rest) == multiset(s) + multiset{x}
  {
    var pool := s[1..] + [x];
    LessEqTotal(x, s[0]);
    forall k | 0 <= k < |pool|
      ensures LessEq(s[0], pool[k])
    {
      if k < |s| - 1 {
        assert pool[k] == s[k + 1];
      }
    }
    LowerBoundCarries(s[0], rest, pool);
    ConsSorted(s[0], rest);
    assert s == [s[0]] + s[1..];
  }

  /** Inserts `x` into a sorted list, before the first element it sorts before. */
  function Insert(x: string, s: seq<string>): (r: seq<string>)
    requires Sorted(s)
    ensures Sorted(r)
    ensures multiset(r) == multiset(s) + multiset{x}
  {
    if |s| == 0 then
      [x]
    else if LessEq(x, s[0]) then
      assert forall j :: 0 <= j < |s| ==> LessEq(x, s[j]) by {
        forall j | 0 <= j < |s| ensures LessEq(x, s[j]) {
          if j > 0 {
            LessEqTransitive(x, s[0], s[j]);
          }
        }
      }
      ConsSorted(x, s);
      [x] + s
    else
      SortedTail(s);
      var rest := Insert(x, s[1..]);
      InsertBehindHead(x, s, rest);
      [s[0]] + rest
  }

  /** `Stream.sorted()`: insertion sort. */
  function InsertionSort(s: seq<string>): (r: seq<string>)
    ensures Sorted(r)
    ensures multiset(r) == multiset(s)
  {
    if |s| == 0 then
      []
    else
      assert s == s[..|s| - 1] + [s[|s| - 1]];
      Insert(s[|s| - 1], InsertionSort(s[..|s| - 1]))
  }

  /** A sorted list's tail is sorted. */
  lemma SortedTail(s: seq<string>)
    requires Sorted(s) && |s| > 0
    ensures Sorted(s[1..])
  {
    forall i, j | 0 <= i < j < |s[1..]|
      ensures LessEq(s[1..][i], s[1..][j])
    {
      assert s[1..][i] == s[i + 1] && s[1..][j] == s[j + 1];
    }
  }

  /** Taking the smaller head `a[0]` first keeps the merged list sorted. */
  lemma MergeStepLeft(a: seq<string>, b: seq<string>, rest: seq<string>)
    requires Sorted(a) && Sorted(b) && |a| > 0 && |b| > 0
    requires LessEq(a[0], b[0])
    requires Sorted(rest) && multiset(rest) == multiset(a[1..]) + multiset(b)
    ensures Sorted([a[0]] + rest)
    ensures multiset([a[0]] + rest) == multiset(a) + multiset(b)
  {
    assert a == [a[0]] + a[1..];
    var pool := a[1..] + b;
    forall k | 0 <= k < |pool|
      ensures LessEq(a[0], pool[k])
    {
      if k < |a[1..]| {
        assert pool[k] == a[k + 1];
      } else if k > |a[1..]| {
        assert pool[k] == b[k - |a[1..]|];
        LessEqTransitive(a[0], b[0], pool[k]);
      }
    }
    LowerBoundCarries(a[0], rest, pool);
    ConsSorted(a[0], rest);
  }

  /** Taking the smaller head `b[0]` first keeps the merged list sorted. */
  lemma MergeStepRight(a: seq<string>, b: seq<string>, rest: seq<string>)
    requires Sorted(a) && Sorted(b) && |a| > 0 && |b| > 0
    requires !LessEq(a[0], b[0])
    requires Sorted(rest) && multiset(rest) == multiset(a) + multiset(b[1..])
    ensures Sorted([b[0]] + rest)
    ensures multiset([b[0]] + rest) == multiset(a) + multiset(b)
  {
    assert b == [b[0]] + b[1..];
    LessEqTotal(a[0], b[0]);
    var pool := a + b[1..];
    forall k | 0 <= k < |pool|
      ensures LessEq(b[0], pool[k])
    {
      if k < |a| {
        assert pool[k] == a[k];
        if k > 0 {
          LessEqTransitive(b[0], a[0], a[k]);
        }
      } else {
        assert pool[k] == b[k - |a| + 1];
      }
    }
    LowerBoundCarries(b[0], rest, pool);
    ConsSorted(b[0], rest);
  }

  /** Merges two sorted lists, taking from the left one on ties (stability). */
  function MergeSorted(a: seq<string>, b: seq<string>): (r: seq<string>)
    requires Sorted(a) && Sorted(b)
    ensures Sorted(r)
    ensures multiset(r) == multiset(a) + multiset(b)
    decreases |a| + |b|
  {
    if |a| == 0 then
      b
    else if |b| == 0 then
      a
    else if LessEq(a[0], b[0]) then
      SortedTail(a);
      var rest := MergeSorted(a[1..], b);
      MergeStepLeft(a, b, rest);
      [a[0]] + rest
    else
      SortedTail(b);
      var rest := MergeSorted(a, b[1..]);
      MergeStepRight(a, b, rest);
      [b[0]] + rest
  }

  /** `Collections.sort`: merge sort (the library's TimSort is a merge sort). */
  function MergeSort(s: seq<string>): (r: seq<string>)
    ensures Sorted(r)
    ensures multiset(r) == multiset(s)
    decreases |s|
  {
    if |s| <= 1 then
      s
    else
      var m := |s| / 2;
      assert s == s[..m] + s[m..];
      MergeSorted(MergeSort(s[..m]), MergeSort(s[m..]))
  }

  /** The head of a sorted list is its least element. */
  lemma SortedHeadLeast(s: seq<string>, x: string)
    requires Sorted(s) && x in s
    ensures LessEq(s[0], x)
  {
    var k :| 0 <= k < |s| && s[k] == x;
    if k == 0 {
      LessEqReflexive(x);
    }
  }

  /** Two sorted lists with the same elements are the same list. */
  lemma {:induction false} SortedUnique(a: seq<string>, b: seq<string>)
    requires Sorted(a) && Sorted(b)
    requires multiset(a) == multiset(b)
    ensures a == b
    decreases |a|
  {
    assert |a| == |multiset(a)| == |multiset(b)| == |b|;
    if |a| > 0 {
      assert a[0] in multiset(b) && b[0] in multiset(a);
      SortedHeadLeast(a, b[0]);
      SortedHeadLeast(b, a[0]);
      LessEqAntisymmetric(a[0], b[0]);
      assert a == [a[0]] + a[1..];
      assert b == [b[0]] + b[1..];
      assert multiset(a) == multiset{a[0]} + multiset(a[1..]);
      assert multiset(b) == multiset{b[0]} + multiset(b[1..]);
      assert multiset(a[1..]) == multiset(a) - multiset{a[0]};
      assert multiset(b[1..]) == multiset(b) - multiset{b[0]};
      SortedTail(a);
      SortedTail(b);
      SortedUnique(a[1..], b[1..]);
    }
  }

  /** The two library sorts agree on every list. */
  lemma {:induction false} SortsAgree(s: seq<string>)
    ensures InsertionSort(s) == MergeSort(s)
  {
    SortedUnique(InsertionSort(s), MergeSort(s));
  }
}

=== FILE: strings.dfy ===
/**
  The parts of `java.lang.String` the plugin relies on, over `seq<char>`:
  `contains`, `replace`, `compareTo` (the natural order used for sorting),
  `equalsIgnoreCase` (restricted to ASCII letters) and `StringBuffer.append`.
 */
module Strings {

  /** `t` occurs in `s` starting at index `i`. */
  ghost predicate OccursAt(s: string, t: string, i: int) {
    0 <= i <= |s| - |t| && s[i..i + |t|] == t
  }

  /** An occurrence that does not start at index 0 is an occurrence in the tail. */
  lemma ShiftOccurrence(s: string, t: string)
    requires |s| > 0 && !(t <= s)
    ensures (exists i :: OccursAt(s, t, i)) <==> (exists i :: OccursAt(s[1..], t, i))
  {
    if exists i :: OccursAt(s, t, i) {
      var i :| OccursAt(s, t, i);
      assert !OccursAt(s, t, 0) by {
        if |t| <= |s| { assert s[0..|t|] == s[..|t|]; }
      }
      assert s[1..][i - 1..i - 1 + |t|] == s[i..i + |t|];
      assert OccursAt(s[1..], t, i - 1);
    }
    if exists j :: OccursAt(s[1..], t, j) {
      var j :| OccursAt(s[1..], t, j);
      assert s[1..][j..j + |t|] == s[j + 1..j + 1 + |t|];
      assert OccursAt(s, t, j + 1);
    }
  }

  /** `String.contains`: a left-to-right scan for `t` in `s`. */
  function Contains(s: string, t: string): (b: bool)
    ensures b <==> exists i :: OccursAt(s, t, i)
    decreases |s|
  {
    if t <= s then
      assert OccursAt(s, t, 0);
      true
    else if |s| == 0 then
      false
    else
      ShiftOccurrence(s, t);
      Contains(s[1..], t)
  }

  /**
    `String.replace(target, replacement)`: every occurrence of `target`,
    found left to right without overlap, is replaced. The plugin only ever
    passes non-empty literal targets.
   */
  function ReplaceAll(s: string, target: string, replacement: string): string
    requires |target| > 0
    decreases |s|
  {
    if |s| == 0 then s
    else if target <= s then replacement + ReplaceAll(s[|target|..], target, replacement)
    else [s[0]] + ReplaceAll(s[1..], target, replacement)
  }

  /** A string without the target is left unchanged by `replace`. */
  lemma {:induction false} ReplaceAllAbsent(s: string, target: string, replacement: string)
    requires |target| > 0
    requires !Contains(s, target)
    ensures ReplaceAll(s, target, replacement) == s
    decreases |s|
  {
    if |s| > 0 {
      assert target <= s ==> OccursAt(s, target, 0);
      ShiftOccurrence(s, target);
      ReplaceAllAbsent(s[1..], target, replacement);
      assert s == [s[0]] + s[1..];
    }
  }

  /** An occurrence in `q` is an occurrence in `p + t + q`, shifted. */
  lemma OccurrenceInSuffix(p: string, t: string, q: string, j: int)
    requires OccursAt(q, t, j)
    ensures OccursAt(p + t + q, t, |p| + |t| + j)
  {
    var s := p + t + q;
    assert s[|p| + |t| + j..|p| + |t| + j + |t|] == q[j..j + |t|];
  }

  /** An occurrence in the tail of a non-empty string is one position later in it. */
  lemma OccurrenceInTail(s: string, t: string, j: int)
    requires |s| > 0 && OccursAt(s[1..], t, j)
    ensures OccursAt(s, t, j + 1)
  {
    assert s[j + 1..j + 1 + |t|] == s[1..][j..j + |t|];
  }

  /**
    Replacement touches only the marker: when the only occurrence of
    `target` in `p + target + q` is the visible one, the result is
    `p + replacement + q`.
   */
  lemma {:induction false} ReplaceAllSingle(p: string, target: string, q: string, replacement: string)
    requires |target| > 0
    requires forall i :: OccursAt(p + target + q, target, i) ==> i == |p|
    ensures ReplaceAll(p + target + q, target, replacement) == p + replacement + q
    decreases |p|
  {
    var s := p + target + q;
    if |p| == 0 {
      assert s[..|target|] == target;
      assert s[|target|..] == q;
      forall j | OccursAt(q, target, j)
        ensures false
      {
        OccurrenceInSuffix(p, target, q, j);
      }
      ReplaceAllAbsent(q, target, replacement);
    } else {
      assert target <= s ==> OccursAt(s, target, 0);
      var s' := p[1..] + target + q;
      assert s[1..] == s';
      forall i | OccursAt(s', target, i)
        ensures i == |p[1..]|
      {
        OccurrenceInTail(s, target, i);
      }
      ReplaceAllSingle(p[1..], target, q, replacement);
      assert p == [p[0]] + p[1..];
    }
  }

  // ---------------------------------------------------------------------
  // The natural order of strings (`String.compareTo`)
  // ---------------------------------------------------------------------

  /**
    `a` sorts before or equal to `b`: the first differing character
    decides, and a proper prefix sorts first.
   */
  predicate LessEq(a: string, b: string)
    decreases |a|
  {
    |a| == 0 || (|b| > 0 && (a[0] < b[0] || (a[0] == b[0] && LessEq(a[1..], b[1..]))))
  }

  lemma {:induction false} LessEqReflexive(a: string)
    ensures LessEq(a, a)
    decreases |a|
  {
    if |a| > 0 {
      LessEqReflexive(a[1..]);
    }
  }

  lemma {:induction false} LessEqTotal(a: string, b: string)
    ensures LessEq(a, b) || LessEq(b, a)
    decreases |a|
  {
    if |a| > 0 && |b| > 0 && a[0] == b[0] {
      LessEqTotal(a[1..], b[1..]);
    }
  }

  lemma {:induction false} LessEqAntisymmetric(a: string, b: string)
    requires LessEq(a, b) && LessEq(b, a)
    ensures a == b
    decreases |a|
  {
    if |a| > 0 {
      LessEqAntisymmetric(a[1..], b[1..]);
      assert a == [a[0]] + a[1..];
      assert b == [b[0]] + b[1..];
    }
  }

  lemma {:induction false} LessEqTransitive(a: string, b: string, c: string)
    requires LessEq(a, b) && LessEq(b, c)
    ensures LessEq(a, c)
    decreases |a|
  {
    if |a| > 0 && a[0] == b[0] && b[0] == c[0] {
      LessEqTransitive(a[1..], b[1..], c[1..]);
    }
  }

  /** Dropping a common prefix of length `k` does not change the order. */
  lemma {:induction false} LessEqDropPrefix(a: string, b: string, k: nat)
    requires k <= |a| && k <= |b| && a[..k] == b[..k]
    ensures LessEq(a, b) == LessEq(a[k..], b[k..])
    decreases k
  {
    if k > 0 {
      assert a[0] == a[..k][0] == b[..k][0] == b[0];
      assert a[1..][..k - 1] == a[1..k] == a[..k][1..];
      assert b[1..][..k - 1] == b[1..k] == b[..k][1..];
      LessEqDropPrefix(a[1..], b[1..], k - 1);
      assert a[1..][k - 1..] == a[k..];
      assert b[1..][k - 1..] == b[k..];
    }
  }

  /**
    `String.compareTo`: the difference of the first differing characters,
    else the difference of the lengths. Its sign agrees with `LessEq`.
   */
  method CompareTo(a: string, b: string) returns (c: int)
    ensures c == 0 <==> a == b
    ensures c <= 0 <==> LessEq(a, b)
  {
    var lim := if |a| < |b| then |a| else |b|;
    var k := 0;
    while k < lim
      invariant 0 <= k <= lim
      invariant a[..k] == b[..k]
    {
      if a[k] != b[k] {
        LessEqDropPrefix(a, b, k);
        c := a[k] as int - b[k] as int;
        return;
      }
      assert a[..k + 1] == a[..k] + [a[k]];
      assert b[..k + 1] == b[..k] + [b[k]];
      k := k + 1;
    }
    LessEqDropPrefix(a, b, k);
    if |a| == |b| {
      assert a == a[..k] && b == b[..k];
    }
    c := |a| - |b|;
  }

  // ---------------------------------------------------------------------
  // `String.equalsIgnoreCase`, ASCII letters only
  // ---------------------------------------------------------------------

  function ToUpperAscii(c: char): char {
    if 'a' <= c <= 'z' then (c as int - 32) as char else c
  }

  /** The upper-case image of a whole string. */
  function ToUpper(s: string): (u: string)
    ensures |u| == |s|
    ensures forall i :: 0 <= i < |s| ==> u[i] == ToUpperAscii(s[i])
  {
    seq(|s|, i requires 0 <= i < |s| => ToUpperAscii(s[i]))
  }

  /**
    Characters are compared one by one: equal, or equal once both are
    upper-cased. Lengths must agree, so neither prefix nor substring
    matches count.
   */
  predicate EqualsIgnoreCase(a: string, b: string) {
    |a| == |b| &&
    forall i :: 0 <= i < |a| ==> a[i] == b[i] || ToUpperAscii(a[i]) == ToUpperAscii(b[i])
  }

  /** Ignoring case is the same as comparing the upper-cased strings. */
  lemma EqualsIgnoreCaseIffSameUpper(a: string, b: string)
    ensures EqualsIgnoreCase(a, b) <==> ToUpper(a) == ToUpper(b)
  {
    if ToUpper(a) == ToUpper(b) {
      forall i | 0 <= i < |a|
        ensures ToUpperAscii(a[i]) == ToUpperAscii(b[i])
      {
        assert ToUpper(a)[i] == ToUpper(b)[i];
      }
    }
  }

  /** Ignoring case is an equivalence that contains plain equality. */
  lemma EqualsIgnoreCaseEquivalence(a: string, b: string, c: string)
    ensures a == b ==> EqualsIgnoreCase(a, b)
    ensures EqualsIgnoreCase(a, b) ==> EqualsIgnoreCase(b, a)
    ensures EqualsIgnoreCase(a, b) && EqualsIgnoreCase(b, c) ==> EqualsIgnoreCase(a, c)
  {
    EqualsIgnoreCaseIffSameUpper(a, b);
    EqualsIgnoreCaseIffSameUpper(b, a);
    EqualsIgnoreCaseIffSameUpper(b, c);
    EqualsIgnoreCaseIffSameUpper(a, c);
  }

  // ---------------------------------------------------------------------
  // `StringBuffer.append`, repeated
  // ---------------------------------------------------------------------

  /** Appends the parts one after another, with no separator. */
  function Concat(parts: seq<string>): string {
    if |parts| == 0 then "" else Concat(parts[..|parts| - 1]) + parts[|parts| - 1]
  }
}

=== FILE: template.dfy ===
/**
  Merging the release notes into the HTML template of the release-notes
  page. Each template line is rewritten by the first trigger it contains,
  tried in a fixed order: the release-date marker, the latest-version
  marker, the "Previous releases" heading, an opening `<ul>`; a line with
  none of them is copied. Both mojos run this same loop.
 */
module Template {
  import opened Wrappers
  import opened Strings
  import opened JavaFormat
  import opened Seqs

  const ReleaseDatePattern: string := "@RELEASE_DATE@"
  const LatestVersionPattern: string := "@LATEST_VERSION@"
  const PreviousReleasesHeading: string := "<h2>Previous releases</h2>"
  const ListOpen: string := "<ul>"

  /** The heading and list opening inserted before the notes. */
  const NotesHeading: string := "<h2>Pull requests and issues</h2>\n<ul>"
  const ListClose: string := "</ul>"

  /**
    The link and path formats, written as literal pieces joined around
    their conversions for the same reason as the line formats: the shape
    lemmas then need no character-by-character comparison of long literals.
   */
  const ReleaseLinkFormat: string := "    <li><a href=\"" + "%s" + ".html\">Jersey " + "%s" + " Release Notes</a></li>"
  const OutputPathFormat: string := "%s" + "/" + "%s" + ".html"

  /** What is substituted into the template. */
  datatype Context = Context(notes: string, version: string, date: string)

  /** The branch of the rewrite a template line takes. */
  datatype LineClass = DateLine | VersionLine | HeadingLine | ListLine | PlainLine

  /** The triggers with the branch each selects, in the order they are tried. */
  const Rules: seq<(string, LineClass)> := [
    (ReleaseDatePattern, DateLine),
    (LatestVersionPattern, VersionLine),
    (PreviousReleasesHeading, HeadingLine),
    (ListOpen, ListLine)
  ]

  /** The branch of the first rule whose trigger occurs in the line. */
  function FirstMatch(line: string, rules: seq<(string, LineClass)>): LineClass {
    if |rules| == 0 then PlainLine
    else if Contains(line, rules[0].0) then rules[0].1
    else FirstMatch(line, rules[1..])
  }

  function Classify(line: string): LineClass {
    FirstMatch(line, Rules)
  }

  /**
    Exactly one branch applies, by first match: each branch is selected
    precisely when its trigger occurs and no earlier trigger does.
   */
  lemma ClassifyFirstMatch(line: string)
    ensures Classify(line) == DateLine <==> Contains(line, ReleaseDatePattern)
    ensures Classify(line) == VersionLine
        <==> !Contains(line, ReleaseDatePattern) && Contains(line, LatestVersionPattern)
    ensures Classify(line) == HeadingLine
        <==> !Contains(line, ReleaseDatePattern) && !Contains(line, LatestVersionPattern)
             && Contains(line, PreviousReleasesHeading)
    ensures Classify(line) == ListLine
        <==> !Contains(line, ReleaseDatePattern) && !Contains(line, LatestVersionPattern)
             && !Contains(line, PreviousReleasesHeading) && Contains(line, ListOpen)
    ensures Classify(line) == PlainLine
        <==> !Contains(line, ReleaseDatePattern) && !Contains(line, LatestVersionPattern)
             && !Contains(line, PreviousReleasesHeading) && !Contains(line, ListOpen)
  {
    var r1 := Rules[1..];
    var r2 := r1[1..];
    var r3 := r2[1..];
    assert Rules[0] == (ReleaseDatePattern, DateLine);
    assert r1[0] == (LatestVersionPattern, VersionLine);
    assert r2[0] == (PreviousReleasesHeading, HeadingLine);
    assert r3[0] == (ListOpen, ListLine);
    assert r3[1..] == [];
    assert FirstMatch(line, r3) == if Contains(line, ListOpen) then ListLine else PlainLine;
    assert FirstMatch(line, r2)
        == if Contains(line, PreviousReleasesHeading) then HeadingLine else FirstMatch(line, r3);
    assert FirstMatch(line, r1)
        == if Contains(line, LatestVersionPattern) then VersionLine else FirstMatch(line, r2);
    assert Classify(line)
        == if Contains(line, ReleaseDatePattern) then DateLine else FirstMatch(line, r1);
  }

  /** The number of template-output lines a branch produces. */
  function Width(c: LineClass): nat {
    match c
    case HeadingLine => 4
    case ListLine => 2
    case _ => 1
  }

  lemma ReleaseLinkFormatShape()
    ensures ReleaseLinkFormat
         == "    <li><a href=\"" + ['%', 's'] + ".html\">Jersey " + ['%', 's'] + " Release Notes</a></li>"
  {
  }

  /** The link to the new release's page added to the list of releases. */
  function ReleaseLink(version: string): (link: string)
    ensures link == "    <li><a href=\"" + version + ".html\">Jersey " + version + " Release Notes</a></li>"
  {
    ReleaseLinkFormatShape();
    assert NoPercent("    <li><a href=\"") && NoPercent(".html\">Jersey ") && NoPercent(" Release Notes</a></li>");
    FormatTwo("    <li><a href=\"", 's', ".html\">Jersey ", 's', " Release Notes</a></li>",
              Str(version), Str(version));
    Format(ReleaseLinkFormat, [Str(version), Str(version)]).value
  }

  /** The file the page is written to: `dir/version.html`. */
  function OutputPath(dir: string, version: string): (path: string)
    ensures path == dir + "/" + version + ".html"
  {
    assert OutputPathFormat == "" + ['%', 's'] + "/" + ['%', 's'] + ".html" by {
      assert "" + ['%', 's'] == "%s";
    }
    assert NoPercent("") && NoPercent("/") && NoPercent(".html");
    FormatTwo("", 's', "/", 's', ".html", Str(dir), Str(version));
    Format(OutputPathFormat, [Str(dir), Str(version)]).value
  }

  /** The body of the template loop: the `if`/`else if` chain over one line. */
  function RewriteLine(line: string, ctx: Context): seq<string> {
    if Contains(line, ReleaseDatePattern) then
      [ReplaceAll(line, ReleaseDatePattern, ctx.date)]
    else if Contains(line, LatestVersionPattern) then
      [ReplaceAll(line, LatestVersionPattern, ctx.version)]
    else if Contains(line, PreviousReleasesHeading) then
      [NotesHeading, ctx.notes, ListClose, line]
    else if Contains(line, ListOpen) then
      [line, ReleaseLink(ctx.version)]
    else
      [line]
  }

  /**
    The chain agrees with the rule table: the branch `Classify` picks
    decides the output, which has `Width` lines.
   */
  lemma RewriteLineByClass(line: string, ctx: Context)
    ensures |RewriteLine(line, ctx)| == Width(Classify(line))
    ensures Classify(line) == DateLine ==> RewriteLine(line, ctx) == [ReplaceAll(line, ReleaseDatePattern, ctx.date)]
    ensures Classify(line) == VersionLine ==> RewriteLine(line, ctx) == [ReplaceAll(line, LatestVersionPattern, ctx.version)]
    ensures Classify(line) == HeadingLine ==> RewriteLine(line, ctx) == [NotesHeading, ctx.notes, ListClose, line]
    ensures Classify(line) == ListLine ==> RewriteLine(line, ctx) == [line, ReleaseLink(ctx.version)]
    ensures Classify(line) == PlainLine ==> RewriteLine(line, ctx) == [line]
  {
    ClassifyFirstMatch(line);
  }

  /** A line holding both markers gets only the release date substituted. */
  lemma DateWinsOverVersion(line: string, ctx: Context)
    requires Contains(line, ReleaseDatePattern) && Contains(line, LatestVersionPattern)
    ensures Classify(line) == DateLine
    ensures RewriteLine(line, ctx) == [ReplaceAll(line, ReleaseDatePattern, ctx.date)]
  {
    ClassifyFirstMatch(line);
  }

  /** The date substitution replaces only the marker, keeping what surrounds it. */
  lemma DateSubstitution(p: string, s: string, ctx: Context)
    requires forall i :: OccursAt(p + ReleaseDatePattern + s, ReleaseDatePattern, i) ==> i == |p|
    ensures RewriteLine(p + ReleaseDatePattern + s, ctx) == [p + ctx.date + s]
  {
    var line := p + ReleaseDatePattern + s;
    assert OccursAt(line, ReleaseDatePattern, |p|) by {
      assert line[|p|..|p| + |ReleaseDatePattern|] == ReleaseDatePattern;
    }
    ReplaceAllSingle(p, ReleaseDatePattern, s, ctx.date);
  }

  /** The version substitution replaces only the marker, on a line without a date marker. */
  lemma VersionSubstitution(p: string, s: string, ctx: Context)
    requires !Contains(p + LatestVersionPattern + s, ReleaseDatePattern)
    requires forall i :: OccursAt(p + LatestVersionPattern + s, LatestVersionPattern, i) ==> i == |p|
    ensures RewriteLine(p + LatestVersionPattern + s, ctx) == [p + ctx.version + s]
  {
    var line := p + LatestVersionPattern + s;
    assert OccursAt(line, LatestVersionPattern, |p|) by {
      assert line[|p|..|p| + |LatestVersionPattern|] == LatestVersionPattern;
    }
    ReplaceAllSingle(p, LatestVersionPattern, s, ctx.version);
  }

  function Rewriter(ctx: Context): string -> seq<string> {
    line => RewriteLine(line, ctx)
  }

  /** The template loop: each line's rewrite, in order. */
  function Merge(template: seq<string>, ctx: Context): seq<string> {
    FlatMap(Rewriter(ctx), template)
  }

  lemma MergeCons(template: seq<string>, ctx: Context)
    requires |template| > 0
    ensures Merge(template, ctx) == RewriteLine(template[0], ctx) + Merge(template[1..], ctx)
  {
  }

  /** Merging distributes over concatenation of templates. */
  lemma MergeAppend(a: seq<string>, b: seq<string>, ctx: Context)
    ensures Merge(a + b, ctx) == Merge(a, ctx) + Merge(b, ctx)
  {
    FlatMapAppend(Rewriter(ctx), a, b);
  }

  lemma MergeSnoc(template: seq<string>, line: string, ctx: Context)
    ensures Merge(template + [line], ctx) == Merge(template, ctx) + RewriteLine(line, ctx)
  {
    MergeAppend(template, [line], ctx);
    MergeCons([line], ctx);
    assert [line][1..] == [];
  }

  /** How many template lines take the given branch. */
  function CountClass(template: seq<string>, c: LineClass): nat {
    if |template| == 0 then 0
    else (if Classify(template[0]) == c then 1 else 0) + CountClass(template[1..], c)
  }

  /** Each heading line adds three lines and each `<ul>` line one. */
  lemma {:induction false} MergeLength(template: seq<string>, ctx: Context)
    ensures |Merge(template, ctx)|
         == |template| + 3 * CountClass(template, HeadingLine) + CountClass(template, ListLine)
    decreases |template|
  {
    if |template| > 0 {
      RewriteLineByClass(template[0], ctx);
      MergeLength(template[1..], ctx);
    }
  }

  /** What a line without a heading or `<ul>` trigger becomes: its markers substituted. */
  function SubstituteMarkers(ctx: Context): string -> string {
    line =>
      if Contains(line, ReleaseDatePattern) then ReplaceAll(line, ReleaseDatePattern, ctx.date)
      else if Contains(line, LatestVersionPattern) then ReplaceAll(line, LatestVersionPattern, ctx.version)
      else line
  }

  lemma SubstituteMarkersOnly(line: string, ctx: Context)
    requires Classify(line) != HeadingLine && Classify(line) != ListLine
    ensures RewriteLine(line, ctx) == [SubstituteMarkers(ctx)(line)]
  {
    ClassifyFirstMatch(line);
  }

  /**
    A template without the heading or `<ul>` triggers keeps its lines, one
    for one, with only the markers substituted.
   */
  lemma {:induction false} MergeWithoutInsertions(template: seq<string>, ctx: Context)
    requires forall i :: 0 <= i < |template| ==>
               Classify(template[i]) != HeadingLine && Classify(template[i]) != ListLine
    ensures Merge(template, ctx) == MapSeq(SubstituteMarkers(ctx), template)
    decreases |template|
  {
    if |template| > 0 {
      var head, tail := template[0], template[1..];
      assert Classify(head) != HeadingLine && Classify(head) != ListLine;
      assert forall i :: 0 <= i < |tail| ==> Classify(tail[i]) != HeadingLine && Classify(tail[i]) != ListLine by {
        forall i | 0 <= i < |tail|
          ensures Classify(tail[i]) != HeadingLine && Classify(tail[i]) != ListLine
        {
          assert tail[i] == template[i + 1];
        }
      }
      SubstituteMarkersOnly(head, ctx);
      MergeWithoutInsertions(tail, ctx);
      MergeCons(template, ctx);
      MapSeqCons(SubstituteMarkers(ctx), template);
    }
  }

  /** A template with none of the four triggers is returned unchanged. */
  lemma {:induction false} MergeIdentity(template: seq<string>, ctx: Context)
    requires forall i :: 0 <= i < |template| ==> Classify(template[i]) == PlainLine
    ensures Merge(template, ctx) == template
    decreases |template|
  {
    if |template| > 0 {
      RewriteLineByClass(template[0], ctx);
      MergeIdentity(template[1..], ctx);
      assert template == [template[0]] + template[1..];
    }
  }

  /**
    The template loop as the source writes it: one pass over the lines,
    appending to the output list. It builds exactly `Merge`.
   */
  method MergeLines(lines: seq<string>, ctx: Context) returns (notesLines: seq<string>)
    ensures notesLines == Merge(lines, ctx)
  {
    notesLines := [];
    for i := 0 to |lines|
      invariant notesLines == Merge(lines[..i], ctx)
    {
      var line := lines[i];
      var out: seq<string>;
      if Contains(line, ReleaseDatePattern) {
        out := [ReplaceAll(line, ReleaseDatePattern, ctx.date)];
      } else if Contains(line, LatestVersionPattern) {
        out := [ReplaceAll(line, LatestVersionPattern, ctx.version)];
      } else if Contains(line, PreviousReleasesHeading) {
        out := [NotesHeading, ctx.notes, ListClose, line];
      } else if Contains(line, ListOpen) {
        out := [line, ReleaseLink(ctx.version)];
      } else {
        out := [line];
      }
      assert out == RewriteLine(line, ctx);
      notesLines := notesLines + out;
      assert lines[..i + 1] == lines[..i] + [line];
      MergeSnoc(lines[..i], line, ctx);
    }
    assert lines[..|lines|] == lines;
  }
}

=== FILE: wrappers.dfy ===
/** Failure-carrying datatypes shared by the rest of the model. */
module Wrappers {

  /** A value that may be absent; `None` stands for a Java `null`. */
  datatype Option<+T> = None | Some(value: T)

  /** The result of an operation that may throw: `Err` carries the exception. */
  datatype Result<+T, +E> = Ok(value: T) | Err(error: E)

  /** The outcome of a check that returns nothing but may throw. */
  datatype Outcome<+E> = Pass | Fail(error: E)
}
